=== FILE: README.md ===
# kickoff-frontend, modelled in Dafny

A model of the logic inside the kickoff football-dashboard front end (a
Next.js/React application). Each component becomes an immutable state record
with one pure step function per event handler or effect. Network replies,
scroll geometry and the stored login token become inputs.

- **Chat** (`chat.dfy`, `chat_properties.dfy`): the general live chat. This
  covers the STOMP client's connect/subscribe/teardown and the message log.
  A history reply replaces the log with the batch sorted by timestamp. Each
  live frame is appended. The "pinned to the bottom" flag is set by scroll
  events and read by the log-change effect. Send is guarded by a blank check
  and a connection check.
- **Schedule** (`schedule.dfy`): one league's fixture table. This covers the
  "no data" guard, the stable kickoff ordering, winner highlighting under
  JavaScript's `>` (where `undefined` is NaN and `null` is 0), the score and
  name fallbacks, the +9h shift and the detail route.
- **Containers** (`panel.dfy`, `collapsible.dfy`, `in_play_container.dfy`,
  `schedule_container.dfy`, `league_ranking_container.dfy`): the
  loading/error/data lifecycle of one POST, the view priority
  (loading > error > no data > content), tab selection, collapsing, and the
  in-play default-league rule.
- **Auth and forms** (`forms.dfy`, `signup.dfy`, `login.dfy`,
  `comment_section.dfy`, `home.dfy`, `app.dfy`): validation order, request
  payloads, and error texts. The `localStorage` item "jwt-token" is one
  `Option<string>` cell: login writes it, logout clears it, and the home
  page, the comment box and the chat read it.
- **Shared helpers**: `text.dfy` covers JavaScript truthiness, `trim`, and
  decimal rendering with a parser. `sorting.dfy` is a stable sort by integer
  key, with sortedness, permutation and stability proved. `http.dfy` gives
  the axios and `fetch` reply classification. `token_store.dfy` is the token
  cell.

axios is modelled as it behaves by default:

- A status in 200..299 resolves. Any other status rejects, and the
  rejection carries `error.response`.
- No response at all rejects without `error.response`.
- An empty body reads as `None`, so reading one of its fields gives
  `undefined`.

`fetch` resolves on any status and rejects only on a network failure.

What the chat code does, and does not do:

- The log is not merged with history and not deduplicated by id. A history
  reply overwrites live messages that were appended before it arrived.
  `ChatProperties.LiveBeforeHistoryIsLost` shows this for the interleaving
  10:00/10:02 history with a 10:01 live message: the live message is lost.
- The token in outgoing frames is read once, when the chat module loads. It
  is not read again at each send.
- A missing token does not block a send. The frame then carries
  `jwtToken: null`.
- There is no reconnection. A repeated connect callback subscribes again.
- A dropped connection is not noticed. The send button stays enabled, and a send then does nothing.
- An absent `response` field leaves the log unchanged. An empty array is
  truthy in JavaScript, so it clears the log.

## Model

| member | source | states |
|---|---|---|
| Chat.Mount | components/chatComponent.js:13-17 | A new session is not connected, has an empty log, an empty input and no sent frames, and is pinned. Its client exists and is not yet connected. It keeps the token read at module load. For valid geometry, the mount effects leave the view at the bottom. |
| Chat.OnConnected | components/chatComponent.js:38-48 | The connect callback marks the UI and the client as connected. It appends one subscription to the chat topic after any existing ones. Nothing else changes: log, input, follow flag, geometry, sent frames and the module-load token stay. |
| Chat.Teardown | components/chatComponent.js:52-57 | With a client, cleanup disconnects it, drops its subscriptions and clears `isConnected`, and changes nothing else. Without a client, nothing changes. |
| Chat.TransportDropped | components/chatComponent.js:38-48 | When the STOMP connection drops, the client stops being connected. `isConnected` keeps its value, because no callback handles the drop. Nothing else changes. |
| Chat.FollowLog | components/chatComponent.js:61-71 | The log-change effect never changes the follow flag or anything but the viewport. When pinned, it leaves valid geometry scrolled to the bottom. When not pinned, it keeps the rendered offset. |
| Chat.SetScrollTop | components/chatComponent.js:69 | Assigning `scrollTop` keeps heights and validity. An in-range value is taken exactly, and a value at or past the end lands at the bottom. |
| Chat.OnScroll | components/chatComponent.js:74-84 | After a scroll, pinned holds exactly when the distance to the bottom is under one pixel. Nothing but the flag and the geometry changes. |
| Chat.OnLive | components/chatComponent.js:42-46 | A live message grows the log by exactly one. The old log is a prefix and the message is last. A copy already present is kept too (count + 1). Only the log and the geometry change. Pinned geometry ends at the bottom, and unpinned geometry keeps the rendered offset. |
| Chat.OnHistory | components/chatComponent.js:20-31 | An accepted reply (status 200, list present) makes the log a permutation of the batch. The log is non-decreasing by timestamp and keeps the batch order among equal timestamps. Only the log and the geometry change, and the log-change effect then follows the bottom when pinned. Any other reply or a rejection leaves the session unchanged. |
| Chat.Send | components/chatComponent.js:87-104 | A blank input changes nothing. Without a connected client, nothing is sent and the input stays. Otherwise exactly one frame is appended, to the send destination, with the module-load token and the input, and the input is cleared. |
| Chat.Type | components/chatComponent.js:144 | Typing sets the input to the box's value and changes nothing else. |
| Chat.KeyDown | components/chatComponent.js:107-111 | Enter behaves exactly as send, and any other key does nothing. |
| Chat.ClickSend | components/chatComponent.js:148 | The disabled button does nothing while not connected, and sends otherwise. |
| ChatProperties.HistoryOverwritesLive | components/chatComponent.js:24-46 | The log after an accepted history reply does not depend on live messages appended before it. |
| ChatProperties.HistoryReplayKeepsLog | components/chatComponent.js:24-26 | Delivering the same history reply twice gives the same log as once. |
| ChatProperties.LiveBeforeHistoryIsLost | components/chatComponent.js:22-50 | A live 10:01 message that arrives before a 10:00/10:02 history batch is missing from the final log [10:00, 10:02]. |
| ChatProperties.LiveDuplicateIsKept | components/chatComponent.js:46 | Appending a message already in the log leaves at least two copies. |
| ChatProperties.TeardownIdempotent | components/chatComponent.js:52-57 | Cleanup twice equals cleanup once. |
| ChatProperties.TeardownStopsSending | components/chatComponent.js:90-103 | After teardown, whether or not a client existed, send, Enter and the button publish nothing. |
| ChatProperties.PinnedSurvivesNewContent | components/chatComponent.js:61-83 | A pinned view that receives a message is measured at the bottom again, so it stays pinned. |
| ChatProperties.UnpinnedKeepsOffset | components/chatComponent.js:67-70 | When unpinned, the log-change effect writes no offset. If the render leaves the user's offset in place, the view keeps it after a message arrives and stays unpinned. |
| ChatProperties.DroppedTransportSendsNothing | components/chatComponent.js:90-103 | After the transport drops, the button stays enabled if it was, but a click or Enter sends nothing and keeps the typed text. |
| ChatProperties.TypeThenEnter | components/chatComponent.js:107-111 | On a connected client, typing non-blank text and pressing Enter publishes exactly that text once and clears the box. Blank text publishes nothing. |
| ChatProperties.ApplyKeepsToken | components/chatComponent.js:10 | No chat event changes the token read at module load. Events only append frames, and each new frame carries that token. |
| ChatProperties.RunKeepsLoadedToken | components/chatComponent.js:87-104 | Over any sequence of connect, transport-drop, unmount, scroll, live, history, typing, key and click events, the token stays the one read at load. Earlier frames are kept, and every frame sent carries that token. |
| App.ChatTokenFixedAtLoad | components/chatComponent.js:10 | A login after the chat module loaded does not change the token in its frames. A chat loaded without a token sends `null` even when the store now holds one. |
| Text.TrimEmptyIffBlank | components/chatComponent.js:88 | `trim() === ""` holds exactly when every character is whitespace or a line terminator. |
| Sorting.SortBy | components/schedule.js:52-54 | The sort returns a permutation of its input in non-decreasing key order. |
| Sorting.SortByStable | components/chatComponent.js:25 | Among elements with the same key, the sort keeps the input order. |
| Schedule.ToKoreanTime | components/schedule.js:19-22 | The instant moves forward by exactly 32,400,000 ms. |
| Schedule.KoreanTimeMonotone | components/schedule.js:19-22 | The shift preserves kickoff order and ignores the zone argument. |
| Schedule.GetHighlightedTeam | components/schedule.js:33-41 | Each name is either verbatim or followed by " ✅", and never both are marked. A side is marked exactly when its score is greater under JavaScript `>`. |
| Schedule.MissingScoreMarksNobody | components/schedule.js:34-40 | With either score undefined, both names come back unchanged. |
| Schedule.NullScoreComparesAsZero | components/schedule.js:34-37 | A `null` score, home or away, loses to any positive score on the other side. |
| Schedule.DrawMarksNobody | components/schedule.js:38-40 | Equal scores, including two `null`s, mark nobody. |
| Schedule.ScoreText | components/schedule.js:126 | A score shows as "-" exactly when it is not a number. A number's text parses back to it. |
| Text.OrElse | components/schedule.js:82-83 | `name \|\| fallback` gives the name when it is a non-empty string and the fallback otherwise. Team names and venue names fall back to "정보 없음" and cities to "". The login and signup pages use it for the server's error message. |
| Schedule.RowOf | components/schedule.js:76-127 | A row shows the shifted kickoff, the venue fallbacks, the highlighted names and the "home - away" score text of its fixture. |
| Schedule.SortedFixtures | components/schedule.js:52-54 | Fixtures are a permutation of the input, ordered by kickoff timestamp, and stable among equal timestamps. |
| Schedule.Render | components/schedule.js:47-54 | "No data" is shown exactly when data, league or fixtures is missing or there are no fixtures. Otherwise there is one row per fixture, in timestamp order, covering the same fixtures. |
| Schedule.DetailPathRoundTrip | components/schedule.js:57-61 | A row click's route `/fixtures/detail/{league.id}/{league.year}/{fixtureId}` yields exactly those three ids back. |
| Text.IntToStringRoundTrip | components/schedule.js:60 | An integer rendered in a template literal parses back to itself. |
| Text.IntToStringInjective | components/schedule.js:60 | Distinct ids give distinct route segments. |
| Panel.Initial | components/leagueRankingContainer.js:7-10 | A container starts loading, with no error and no data. |
| Panel.Begin | components/scheduleContainer.js:17-18 | Starting a fetch sets loading, clears the error and keeps the data. |
| Panel.Loaded | components/scheduleContainer.js:22-25 | A resolved reply yields its list, or [] when the list is absent. A rejection yields nothing. |
| Panel.Finish | components/scheduleContainer.js:20-31 | Loading is false after every path. Success stores the list and keeps the error. Failure sets the load-error text and keeps the data. |
| Panel.Selected | components/leagueRankingContainer.js:67 | The selected league is the list element at the index, or undefined outside the list. |
| Panel.ViewOf | components/inPlayContainer.js:59-85 | The spinner shows exactly while loading. The error text shows exactly when not loading and an error is set. "No data" shows exactly when neither holds and the list is empty. Otherwise the selected league shows. |
| Panel.FetchCycleView | components/leagueRankingContainer.js:12-64 | After a full fetch the spinner is gone. A failure shows the load error, and a success shows "no data" or the selected league. |
| InPlayContainer.FindLive | components/inPlayContainer.js:25 | `findIndex` returns the first league with non-empty fixtures, or -1 when none has any. |
| InPlayContainer.DefaultIndex | components/inPlayContainer.js:28-33 | The opened tab is the smallest index with live fixtures, or 0 when there is none. It lies within a non-empty list. |
| InPlayContainer.Init | components/inPlayContainer.js:9-13 | The container starts loading, with no error, no data, the first tab, and expanded. |
| Collapsible.FetchStart | components/inPlayContainer.js:17-18 | Starting a fetch sets loading and clears the error. Data, tab and collapse are kept. The schedule container does the same. |
| InPlayContainer.FetchDone | components/inPlayContainer.js:20-41 | Success stores the list and selects the default tab. Failure sets the error and keeps data and tab. Loading ends false either way. |
| Collapsible.ToggleCollapse | components/inPlayContainer.js:54-56 | Toggling flips the collapsed flag and nothing else. The schedule container's handler is identical. |
| Collapsible.ToggleCollapseInvolution | components/inPlayContainer.js:54-56 | Toggling twice restores the state. |
| Collapsible.TabChange | components/inPlayContainer.js:47-52 | A tab change selects the new index and always leaves the body expanded. The schedule container's handler is identical. |
| InPlayContainer.MountShowsDefaultLeague | components/inPlayContainer.js:22-35 | After a successful fetch of a non-empty list, the content is the default league. |
| ScheduleContainer.Init | components/scheduleContainer.js:9-13 | The container starts loading, with no error, no data, the first tab, and collapsed. |
| ScheduleContainer.FetchDone | components/scheduleContainer.js:20-31 | Success stores the list (or []) without resetting the tab. Failure sets the error. Loading ends false. |
| ScheduleContainer.Body | components/scheduleContainer.js:146 | The table shows exactly in the content view, and it is the fixture table of the selected league. |
| ScheduleContainer.TabPastEndShowsNoData | components/scheduleContainer.js:76 | A tab index past the list hands the table `undefined`, which shows "no data". |
| LeagueRankingContainer.Init | components/leagueRankingContainer.js:7-10 | The container starts loading, with no error, no data, and the first tab. |
| LeagueRankingContainer.FetchStart | components/leagueRankingContainer.js:14-15 | Starting a fetch sets loading, clears the error and keeps the data. |
| LeagueRankingContainer.FetchDone | components/leagueRankingContainer.js:17-28 | Success stores the list (or []). Failure sets the error. Loading ends false and the tab is kept. |
| LeagueRankingContainer.TabChange | components/leagueRankingContainer.js:34-37 | A tab change updates only the selected index. |
| LeagueRankingContainer.RankingInput | components/leagueRankingContainer.js:67-99 | The ranking table receives a one-element list: the selected league, or undefined. |
| LeagueRankingContainer.TabFeedsRanking | components/leagueRankingContainer.js:34-37 | After a tab change the table receives the league that tab selects. When the content view shows, it is the league the table receives. |
| LeagueRankingContainer.TabChangeKeepsView | components/leagueRankingContainer.js:34-55 | Two tab changes equal the last one, and a tab change never shows or hides the spinner or the error. |
| Forms.Blank | app/members/signup/page.js:20-27 | The initial form holds "" in exactly the listed fields. |
| Forms.Change | app/members/signup/page.js:66-72 | `handleChange` sets the named field and leaves every other field as it was. |
| Forms.ChangeTwice | app/members/login/page.js:17-23 | A second change of the same field overrides the first. |
| Forms.ChangesCommute | app/members/login/page.js:17-23 | Changes to different fields commute. |
| Signup.Init | app/members/signup/page.js:20-32 | The six fields start empty, with no leagues, teams or error, and no success. |
| Signup.LeaguesLoaded | app/members/signup/page.js:38-48 | A 200 reply stores the leagues. Another 2xx changes nothing. A rejection sets the league-load error. |
| Signup.FindLeague | app/members/signup/page.js:58 | `find` returns the first league with the id, or nothing when no league has it. |
| Signup.LeagueChange | app/members/signup/page.js:53-64 | The league field becomes the id and the team field "". Other fields are kept. The team list becomes that league's teams, or []. |
| Signup.LoadThenPickLeague | app/members/signup/page.js:38-64 | After a 200 team-list reply, choosing a listed league's id offers exactly that league's teams (the first entry with that id). |
| Signup.FailedLoadOffersNoTeams | app/members/signup/page.js:45-64 | After a failed team-list fetch, every league choice offers no teams. |
| Signup.Edit | app/members/signup/page.js:66-72 | Editing a field changes only that field of the page state. |
| Signup.SubmitStart | app/members/signup/page.js:74-98 | Submit clears success, sets the error (or clears it), and changes nothing else: form, league list and teams stay. Any empty field among email, password, confirmation, nickname and team gives the "all fields" error and no request. Otherwise a password mismatch gives its own error and no request. Otherwise exactly {email, password, nickname, favoriteTeamId = team} is sent. |
| Signup.SubmitDone | app/members/signup/page.js:100-117 | A 200 reply sets success, resets the form to exactly the six blank fields, and clears the team list. Another 2xx changes nothing. A rejection with a body shows the server message or the fixed fallback. Otherwise the generic text shows. |
| Signup.RequestIgnoresLeague | app/members/signup/page.js:93-98 | The league choice never affects the request. |
| Signup.MissingFieldsReportedFirst | app/members/signup/page.js:82-90 | With any of the checked fields missing and the passwords differing, the "all fields" error wins and no request is sent. |
| Signup.SuccessThenResubmitIsRejected | app/members/signup/page.js:100-110 | After success, an immediate resubmit fails validation and sends nothing. |
| Login.Init | app/members/login/page.js:9-14 | Email, password and error start empty. |
| Login.Edit | app/members/login/page.js:17-23 | Editing changes only the named field and keeps the error. |
| Login.SubmitStart | app/members/login/page.js:25-40 | A request is sent exactly when both fields are non-empty, and it carries them. Otherwise the missing-credentials error shows. |
| Login.EditThenSubmit | app/members/login/page.js:17-40 | Typing an email and a password into a fresh page and submitting posts exactly those credentials when both are non-empty, and posts nothing when either is empty. |
| Login.SubmitDone | app/members/login/page.js:42-55 | Only a 200 reply with a non-empty token stores that token and navigates to "/". Every other reply leaves the store as it was and shows an error: "login failed, retry" for other resolved replies, the server message or a fallback for rejections with a body, the generic text otherwise. |
| Login.Non200TokenIgnored | app/members/login/page.js:42-48 | A 2xx reply other than 200 stores nothing, even with a token. |
| TokenStore.Write | app/members/login/page.js:43 | The store then holds exactly the token string, and counts as logged in exactly when it is non-empty. |
| TokenStore.Clear | app/page.js:28 | The item is removed, so it reads back as `null` (not as ""), and no token is stored. |
| CommentSection.Mount | components/CommentSection.js:9-12 | The logged-in flag equals "a token is stored" at mount. |
| CommentSection.Type | components/CommentSection.js:74 | Typing sets the comment to the textarea's value and keeps the logged-in flag. |
| CommentSection.SubmitStart | components/CommentSection.js:15-38 | A request is sent exactly when a token is stored at submit time. Otherwise the login alert is raised. The request posts to the create URL with `Authorization: Bearer <token>`, a JSON content type and body {leagueId, year, fixtureId, comment}. |
| CommentSection.SubmitDone | components/CommentSection.js:40-48 | An ok status clears the comment and confirms. A non-ok status or a network failure alerts the error and keeps the comment. |
| CommentSection.RetryAfterReply | components/CommentSection.js:14-48 | After a failed post the comment is kept, so submitting again sends the same request. After an ok post the next request carries an empty comment. |
| CommentSection.SubmitRereadsToken | components/CommentSection.js:9-20 | A box that mounted logged in still sends nothing once the token is gone. |
| Home.Mount | app/page.js:20-23 | The logged-in flag equals "a token is stored" at mount. |
| Home.Logout | app/page.js:26-32 | Logout removes the token, so the store reads back as `null` (not ""). It clears the flag and raises the logout alert. |
| Home.ControlsOf | app/page.js:60-85 | The signup and login links show exactly when logged out, and the logout button exactly when logged in. Attendance always shows. |
| Home.Attendance | app/page.js:34-36 | The attendance handler changes nothing. |
| Home.ControlsExclusive | app/page.js:60-82 | Logout and the login links never show together. |
| App.LoginThenHomeOffersLogout | app/members/login/page.js:42-45 | After an accepted login, the home page mounts logged in, with logout shown and login hidden. |
| App.LogoutBlocksComments | app/page.js:26-31 | After logout, a comment submit raises the login alert and sends nothing. |

## Left out

- HTTP and WebSocket transport: URLs, axios/`fetch`/SockJS/STOMP internals and the servers are left out. Replies and inbound frames are inputs, and outgoing frames and requests are recorded values.
- Rendering (JSX, MUI, CSS, the DOM) is left out. Only which view a container shows, which home-page controls appear and the fixture table's cell values are modelled.
- Date parsing and `toLocaleString` formatting are locale and library behaviour. Instants and timestamps are integers in milliseconds. A timestamp the chat's `new Date` cannot parse (NaN in the comparator) is not modelled.
- The `if (!chatLogElement) return` guards (components/chatComponent.js:65, 77, 117) are left out, because the log element is always rendered when effects and handlers run.
- `console` output and the text of alerts beyond the string raised are left out.
- Deduplication by id, merging history with live messages, reconnection and cancelling stale completions are left out. The code has none of them, so modelling them would invent behaviour.
- Effects that complete after unmount (React ignores those state updates) are left out.
- A JSON body that is literally `null` (reading a field of it throws a TypeError) is left out. An empty body is modelled as `None`, whose fields read as `undefined`.
- Form values are strings. A numeric team id of 0, which JavaScript treats as falsy, is not modelled.
- Text.IntToString: renders every integer in plain decimal. JavaScript switches to exponent notation at magnitudes of 1e21 and above, and loses precision above 2^53. Ids are assumed to be safe integers.
- Signup.LeaguesLoaded: a 200 reply whose body lacks `response` is modelled as an empty league list. The source stores `undefined`, after which the page's render would throw.
- The signup page's `handleHome` (a plain navigation to "/") is left out.
- The detail pages, `components/inPlay.js` and `components/leagueRanking.js` are left out as pure table rendering. The `convertToKoreanTime` in inPlay.js is never called.
- Chat.Send: it cannot fail with a distinct "unauthenticated" outcome, because the code has none. A missing token is sent as `null`.

=== FILE: app.dfy ===
/**
 * The components meet only in the token store: login writes it, logout
 * clears it, the home page and the comment box read it at mount (and the
 * comment box again at submit), and the chat reads it once when its module
 * is loaded.
 */
module App {
  import opened Wrappers
  import opened Text
  import opened Http
  import TokenStore
  import Login
  import Home
  import CommentSection
  import Chat

  /** After an accepted login, the home page mounts logged in and offers logout. */
  lemma LoginThenHomeOffersLogout(page: Login.State, store: TokenStore.Store, reply: Reply<Login.LoginBody>)
    requires Login.Accepted(reply)
    ensures var home := Home.Mount(Login.SubmitDone(page, store, reply).store);
            home.isLoggedIn && Home.ControlsOf(home).logoutButton && !Home.ControlsOf(home).loginLink
  {
  }

  /** After logout, a comment submit raises the login alert and sends nothing. */
  lemma LogoutBlocksComments(home: Home.State, store: TokenStore.Store, c: CommentSection.State, props: CommentSection.Props)
    ensures var after := Home.Logout(home, store).store;
            CommentSection.SubmitStart(c, props, after) == CommentSection.Submitted(Some(CommentSection.LoginRequired), None)
  {
  }

  /**
   * The chat keeps the token it read at module load: a later login does
   * not change the token its frames carry, and a chat loaded with no token
   * publishes frames whose token is `null`.
   */
  lemma ChatTokenFixedAtLoad(loaded: TokenStore.Store, v: Chat.Viewport, page: Login.State,
                             reply: Reply<Login.LoginBody>, text: string)
    requires Login.Accepted(reply) && !IsBlank(text)
    ensures
      var session := Chat.Type(Chat.OnConnected(Chat.Mount(loaded, v)), text);
      var now := Login.SubmitDone(page, loaded, reply).store;
      var sent := Chat.Send(session).outbox;
      && TokenStore.HasToken(now)
      && sent == [Chat.Frame(Chat.SendDestination, loaded, text)]
      && (loaded == None ==> sent[0].jwtToken != now)
  {
  }
}

=== FILE: chat.dfy ===
/**
 * The general live chat component: a STOMP-over-SockJS session with a
 * message log, a "pinned to the newest message" follow flag driven by
 * scroll events, and a guarded send. Each event handler and effect is a
 * pure step on an immutable `Session`; network replies, inbound frames and
 * the measured scroll geometry are inputs.
 */
module Chat {
  import opened Wrappers
  import opened Text
  import opened Sorting
  import opened Http
  import TokenStore

  /** The topic the connect callback subscribes to. */
  const SubscribeTopic := "/sub/general-live-chat"
  /** The destination every outgoing chat frame is sent to. */
  const SendDestination := "/pub/chat/general/live/message/send"

  /** A chat message as the server sends it; the timestamp is an instant in milliseconds. */
  datatype ChatMessage = ChatMessage(nickname: string, message: string, timestamp: int)

  function Timestamp(m: ChatMessage): int {
    m.timestamp
  }

  /** The body of the history reply: `{ response: [...] }`, the list possibly absent. */
  datatype HistoryBody = HistoryBody(response: Option<seq<ChatMessage>>)

  /**
   * An outgoing STOMP frame: destination plus the JSON body
   * `{ jwtToken, message }` (`jwtToken` is `null` when no token was stored).
   * The frame headers are always empty.
   */
  datatype Frame = Frame(destination: string, jwtToken: Option<string>, message: string)

  /** The module-level `stompClient`: not yet created, or a client with its subscriptions. */
  datatype Client = NoClient | Client(connected: bool, subscriptions: seq<string>)

  /** The chat log element's scroll geometry, in CSS pixels. */
  datatype Viewport = Viewport(scrollTop: real, scrollHeight: real, clientHeight: real)

  /** Geometry a browser can report: the content is at least as tall as the box and the offset is in range. */
  predicate ValidViewport(v: Viewport) {
    0.0 <= v.clientHeight <= v.scrollHeight && 0.0 <= v.scrollTop <= v.scrollHeight - v.clientHeight
  }

  function Abs(x: real): real {
    if x < 0.0 then -x else x
  }

  /** The bottom test of `handleScroll`, with its tolerance of one pixel. */
  predicate AtBottom(v: Viewport) {
    Abs(v.scrollHeight - v.scrollTop - v.clientHeight) < 1.0
  }

  /** Assigning `element.scrollTop`: the browser clamps the offset into its scrollable range. */
  function SetScrollTop(v: Viewport, top: real): (r: Viewport)
    ensures r.scrollHeight == v.scrollHeight && r.clientHeight == v.clientHeight
    ensures ValidViewport(v) ==> ValidViewport(r)
    ensures ValidViewport(v) && 0.0 <= top <= v.scrollHeight - v.clientHeight ==> r.scrollTop == top
    ensures ValidViewport(v) && top >= v.scrollHeight - v.clientHeight ==> AtBottom(r)
  {
    var range := if v.scrollHeight - v.clientHeight < 0.0 then 0.0 else v.scrollHeight - v.clientHeight;
    v.(scrollTop := if top < 0.0 then 0.0 else if top > range then range else top)
  }

  datatype Session = Session(
    input: string,             // the text box (`message`)
    isConnected: bool,         // the `isConnected` state shown in the page
    log: seq<ChatMessage>,     // `chatLogs`
    pinned: bool,              // `isScrolledToBottom`
    client: Client,            // the module-level `stompClient`
    viewport: Viewport,        // the log element's geometry
    loadedToken: Option<string>, // `jwtToken`, read once when the module was loaded
    outbox: seq<Frame>         // every frame handed to `stompClient.send`, in order
  )

  /**
   * Mounting the component: the initial state, then the three mount effects
   * in order (create the client and start connecting and fetching; the
   * log-change effect, pinned, so scrolled down; the initial scroll to the
   * bottom). `token` is what `localStorage` held when the module loaded.
   */
  function Mount(token: TokenStore.Store, v: Viewport): (s: Session)
    ensures s.input == "" && !s.isConnected && s.log == [] && s.pinned && s.outbox == []
    ensures s.client == Client(false, [])
    ensures s.loadedToken == token
    ensures ValidViewport(v) ==> ValidViewport(s.viewport) && AtBottom(s.viewport)
  {
    var initial := Session("", false, [], true, NoClient, v, token, []);
    var connecting := initial.(client := Client(false, []));
    var followed := FollowLog(connecting, connecting.viewport);
    followed.(viewport := SetScrollTop(followed.viewport, followed.viewport.scrollHeight))
  }

  /** The STOMP connect callback: mark connected, then subscribe to the chat topic. */
  function OnConnected(s: Session): (r: Session)
    ensures r.isConnected && r.client.Client? && r.client.connected
    ensures |r.client.subscriptions| > 0 && r.client.subscriptions[|r.client.subscriptions| - 1] == SubscribeTopic
    ensures s.client.Client? ==>
              && |r.client.subscriptions| == |s.client.subscriptions| + 1
              && r.client.subscriptions[..|s.client.subscriptions|] == s.client.subscriptions
    ensures r == s.(isConnected := true, client := r.client)
  {
    var subscriptions := if s.client.Client? then s.client.subscriptions else [];
    assert (subscriptions + [SubscribeTopic])[..|subscriptions|] == subscriptions;
    s.(isConnected := true, client := Client(true, subscriptions + [SubscribeTopic]))
  }

  /**
   * The effect cleanup on unmount: when a client exists, disconnect it and
   * clear `isConnected`; otherwise nothing happens.
   */
  function Teardown(s: Session): (r: Session)
    ensures s.client.Client? ==> r == s.(isConnected := false, client := Client(false, []))
    ensures s.client.NoClient? ==> r == s
  {
    if s.client.Client? then s.(client := Client(false, []), isConnected := false) else s
  }

  /**
   * The STOMP connection dropping on its own: the client stops being
   * connected, but no callback is registered for it, so `isConnected`
   * (and with it the enabled send button) stays as it was.
   */
  function TransportDropped(s: Session): (r: Session)
    ensures !ClientConnected(r)
    ensures r == s.(client := r.client)
    ensures s.client.Client? ==> r.client.Client? && r.client.subscriptions == s.client.subscriptions
  {
    if s.client.Client? then s.(client := s.client.(connected := false)) else s
  }

  /**
   * The effect that runs after every change of `chatLogs`: on the freshly
   * rendered geometry, scroll to the bottom exactly when pinned. It reads
   * `pinned` and never writes it.
   */
  function FollowLog(s: Session, rendered: Viewport): (r: Session)
    ensures r == s.(viewport := r.viewport)
    ensures !s.pinned ==> r.viewport == rendered
    ensures s.pinned && ValidViewport(rendered) ==>
              ValidViewport(r.viewport) && AtBottom(r.viewport)
              && r.viewport.scrollTop == rendered.scrollHeight - rendered.clientHeight
  {
    if s.pinned then s.(viewport := SetScrollTop(rendered, rendered.scrollHeight))
    else s.(viewport := rendered)
  }

  /** `handleScroll`: re-measure and decide whether the view is pinned. */
  function OnScroll(s: Session, measured: Viewport): (r: Session)
    ensures r.pinned <==> Abs(measured.scrollHeight - measured.scrollTop - measured.clientHeight) < 1.0
    ensures r == s.(pinned := r.pinned, viewport := measured)
  {
    s.(viewport := measured, pinned := AtBottom(measured))
  }

  /** A live frame on the subscription: append the parsed message, then the log-change effect. */
  function OnLive(s: Session, msg: ChatMessage, rendered: Viewport): (r: Session)
    ensures |r.log| == |s.log| + 1 && r.log[..|s.log|] == s.log && r.log[|s.log|] == msg
    ensures multiset(r.log)[msg] == multiset(s.log)[msg] + 1
    ensures r == s.(log := r.log, viewport := r.viewport)
    ensures !s.pinned ==> r.viewport == rendered
    ensures s.pinned && ValidViewport(rendered) ==> ValidViewport(r.viewport) && AtBottom(r.viewport)
  {
    assert (s.log + [msg])[..|s.log|] == s.log;
    FollowLog(s.(log := s.log + [msg]), rendered)
  }

  /** The history reply is taken: status 200 and a `response` list present (an empty list counts). */
  predicate HistoryAccepted(reply: Reply<HistoryBody>) {
    reply.Response? && reply.status == 200 && reply.body.Some? && reply.body.value.response.Some?
  }

  /**
   * `fetchChatLogs` completing: an accepted batch replaces the whole log by
   * the batch sorted by timestamp (stable), followed by the log-change
   * effect; any other reply, including a rejection, leaves the session
   * as it was.
   */
  function OnHistory(s: Session, reply: Reply<HistoryBody>, rendered: Viewport): (r: Session)
    ensures HistoryAccepted(reply) ==>
              var batch := reply.body.value.response.value;
              && multiset(r.log) == multiset(batch)
              && SortedBy(r.log, Timestamp)
              && (forall k :: WithKey(r.log, Timestamp, k) == WithKey(batch, Timestamp, k))
    ensures HistoryAccepted(reply) ==> r == s.(log := r.log, viewport := r.viewport)
    ensures HistoryAccepted(reply) && !s.pinned ==> r.viewport == rendered
    ensures HistoryAccepted(reply) && s.pinned && ValidViewport(rendered) ==>
              ValidViewport(r.viewport) && AtBottom(r.viewport)
    ensures !HistoryAccepted(reply) ==> r == s
  {
    if HistoryAccepted(reply) then
      var batch := reply.body.value.response.value;
      var sorted := SortBy(batch, Timestamp);
      assert forall k :: WithKey(sorted, Timestamp, k) == WithKey(batch, Timestamp, k) by {
        forall k ensures WithKey(sorted, Timestamp, k) == WithKey(batch, Timestamp, k) {
          SortByStable(batch, Timestamp, k);
        }
      }
      FollowLog(s.(log := sorted), rendered)
    else s
  }

  /** The text box's `onChange`: only the input changes. */
  function Type(s: Session, value: string): (r: Session)
    ensures r.input == value
    ensures r == s.(input := r.input)
  {
    s.(input := value)
  }

  predicate ClientConnected(s: Session) {
    s.client.Client? && s.client.connected
  }

  /**
   * `sendMessage`: a whitespace-only input does nothing; without a
   * connected client nothing is sent and the input stays; otherwise exactly
   * one frame goes out, carrying the token read at module load, and the
   * input is cleared.
   */
  function Send(s: Session): (r: Session)
    ensures IsBlank(s.input) ==> r == s
    ensures !ClientConnected(s) ==> r == s
    ensures !IsBlank(s.input) && ClientConnected(s) ==>
              && r.outbox == s.outbox + [Frame(SendDestination, s.loadedToken, s.input)]
              && r.input == ""
              && r == s.(outbox := r.outbox, input := "")
  {
    TrimEmptyIffBlank(s.input);
    if Trim(s.input) == "" then s
    else if s.client.Client? && s.client.connected then
      s.(outbox := s.outbox + [Frame(SendDestination, s.loadedToken, s.input)], input := "")
    else s
  }

  /** `handleKeyDown`: Enter with a non-blank input sends; every other key does nothing. */
  function KeyDown(s: Session, key: string): (r: Session)
    ensures key == "Enter" ==> r == Send(s)
    ensures key != "Enter" ==> r == s
  {
    TrimEmptyIffBlank(s.input);
    if key == "Enter" && Trim(s.input) != "" then Send(s) else s
  }

  /** The send button, which is disabled while `isConnected` is false. */
  function ClickSend(s: Session): (r: Session)
    ensures !s.isConnected ==> r == s
    ensures s.isConnected ==> r == Send(s)
  {
    if s.isConnected then Send(s) else s
  }
}

=== FILE: chat_properties.dfy ===
/**
 * Properties relating several chat events: how history and live messages
 * interact (the log is replaced, never merged), what teardown leaves
 * behind, and how the follow flag survives new content.
 */
module ChatProperties {
  import opened Wrappers
  import opened Text
  import opened Http
  import opened Chat

  /**
   * A history reply overwrites whatever live messages were appended before
   * it arrived: the resulting log does not depend on them.
   */
  lemma HistoryOverwritesLive(s: Session, msg: ChatMessage, reply: Reply<HistoryBody>, v1: Viewport, v2: Viewport)
    requires HistoryAccepted(reply)
    ensures OnHistory(OnLive(s, msg, v1), reply, v2).log == OnHistory(s, reply, v2).log
  {
  }

  /** Delivering the same history reply twice leaves the log as after the first. */
  lemma HistoryReplayKeepsLog(s: Session, reply: Reply<HistoryBody>, v: Viewport)
    ensures OnHistory(OnHistory(s, reply, v), reply, v).log == OnHistory(s, reply, v).log
  {
  }

  /**
   * The interleaving in which a live message (10:01) arrives before the
   * history batch (10:02, 10:00) completes: the final log is the sorted
   * batch alone, so the live message is lost rather than merged in.
   */
  lemma LiveBeforeHistoryIsLost(v: Viewport)
    ensures
      var a := ChatMessage("a", "first", 36_000_000);
      var b := ChatMessage("b", "live", 36_060_000);
      var c := ChatMessage("c", "third", 36_120_000);
      var live := OnLive(OnConnected(Mount(None, v)), b, v);
      var done := OnHistory(live, Response(200, Some(HistoryBody(Some([c, a])))), v);
      done.log == [a, c] && b !in done.log
  {
    var a := ChatMessage("a", "first", 36_000_000);
    var b := ChatMessage("b", "live", 36_060_000);
    var c := ChatMessage("c", "third", 36_120_000);
    var live := OnLive(OnConnected(Mount(None, v)), b, v);
    var reply := Response(200, Some(HistoryBody(Some([c, a]))));
    assert HistoryAccepted(reply);
    var sorted := Sorting.SortBy([c, a], Timestamp);
    assert [c, a][1..] == [a];
    assert Sorting.SortBy([a], Timestamp) == [a];
    assert sorted == Sorting.Insert(c, [a], Timestamp) == [a, c];
    assert OnHistory(live, reply, v) == FollowLog(live.(log := sorted), v);
  }

  /** A live message appended to a log that already holds it is kept twice: no deduplication. */
  lemma LiveDuplicateIsKept(s: Session, msg: ChatMessage, v: Viewport)
    requires msg in s.log
    ensures multiset(OnLive(s, msg, v).log)[msg] >= 2
  {
  }

  /** Tearing down twice is the same as tearing down once. */
  lemma TeardownIdempotent(s: Session)
    ensures Teardown(Teardown(s)) == Teardown(s)
  {
  }

  /** After teardown of a created client, no send reaches the transport. */
  lemma TeardownStopsSending(s: Session, key: string)
    ensures Send(Teardown(s)).outbox == s.outbox
    ensures KeyDown(Teardown(s), key).outbox == s.outbox
    ensures ClickSend(Teardown(s)) == Teardown(s)
  {
  }

  /**
   * Sticking to the bottom: when pinned, new content scrolls the view down
   * so that the next scroll measurement of the same geometry keeps it pinned.
   */
  lemma PinnedSurvivesNewContent(s: Session, msg: ChatMessage, rendered: Viewport)
    requires s.pinned && ValidViewport(rendered)
    ensures var r := OnLive(s, msg, rendered); OnScroll(r, r.viewport).pinned
  {
  }

  /**
   * When not pinned, the log-change effect writes no offset: a render that
   * appends a row below leaves the offset where the user put it, and so
   * does the message.
   */
  lemma UnpinnedKeepsOffset(s: Session, msg: ChatMessage, rendered: Viewport)
    requires !s.pinned
    requires rendered.scrollTop == s.viewport.scrollTop
    ensures OnLive(s, msg, rendered).viewport.scrollTop == s.viewport.scrollTop
    ensures !OnLive(s, msg, rendered).pinned
  {
  }

  /**
   * After the transport drops, the button stays enabled if it was, but a
   * click or Enter sends nothing and leaves the typed text in the box.
   */
  lemma DroppedTransportSendsNothing(s: Session, key: string)
    ensures TransportDropped(s).isConnected == s.isConnected
    ensures ClickSend(TransportDropped(s)) == TransportDropped(s)
    ensures KeyDown(TransportDropped(s), key) == TransportDropped(s)
  {
  }

  /**
   * Typing a message and pressing Enter on a connected client publishes
   * exactly that text once and clears the box; a blank one publishes nothing.
   */
  lemma TypeThenEnter(s: Session, text: string)
    requires ClientConnected(s)
    ensures !IsBlank(text) ==>
              && KeyDown(Type(s, text), "Enter").outbox == s.outbox + [Frame(SendDestination, s.loadedToken, text)]
              && KeyDown(Type(s, text), "Enter").input == ""
    ensures IsBlank(text) ==> KeyDown(Type(s, text), "Enter") == Type(s, text)
  {
  }

  /** Every event the mounted component reacts to, with the inputs it observes. */
  datatype Event =
    | Connected
    | Dropped
    | Unmounted
    | Scrolled(measured: Viewport)
    | Live(msg: ChatMessage, rendered: Viewport)
    | History(reply: Reply<HistoryBody>, rendered: Viewport)
    | Typed(value: string)
    | Key(key: string)
    | Clicked

  function Apply(s: Session, e: Event): Session {
    match e
    case Connected => OnConnected(s)
    case Dropped => TransportDropped(s)
    case Unmounted => Teardown(s)
    case Scrolled(m) => OnScroll(s, m)
    case Live(msg, v) => OnLive(s, msg, v)
    case History(reply, v) => OnHistory(s, reply, v)
    case Typed(value) => Type(s, value)
    case Key(key) => KeyDown(s, key)
    case Clicked => ClickSend(s)
  }

  function Run(s: Session, events: seq<Event>): Session
    decreases |events|
  {
    if |events| == 0 then s else Run(Apply(s, events[0]), events[1..])
  }

  /** One event keeps the loaded token and only ever appends frames carrying it. */
  predicate KeepsToken(s: Session, r: Session) {
    && r.loadedToken == s.loadedToken
    && |r.outbox| >= |s.outbox| && r.outbox[..|s.outbox|] == s.outbox
    && forall i :: |s.outbox| <= i < |r.outbox| ==> r.outbox[i].jwtToken == s.loadedToken
  }

  /** A step that sends nothing and keeps the token keeps the invariant. */
  lemma SilentStepKeepsToken(s: Session, r: Session)
    requires r.loadedToken == s.loadedToken && r.outbox == s.outbox
    ensures KeepsToken(s, r)
  {
    assert s.outbox[..|s.outbox|] == s.outbox;
  }

  lemma SendKeepsToken(s: Session)
    ensures KeepsToken(s, Send(s))
  {
    var r := Send(s);
    if r == s {
      SilentStepKeepsToken(s, r);
    } else {
      assert r.outbox == s.outbox + [Frame(SendDestination, s.loadedToken, s.input)];
      assert r.outbox[..|s.outbox|] == s.outbox;
    }
  }

  lemma ApplyKeepsToken(s: Session, e: Event)
    ensures KeepsToken(s, Apply(s, e))
  {
    match e
    case Connected => SilentStepKeepsToken(s, OnConnected(s));
    case Dropped => SilentStepKeepsToken(s, TransportDropped(s));
    case Unmounted => SilentStepKeepsToken(s, Teardown(s));
    case Scrolled(m) => SilentStepKeepsToken(s, OnScroll(s, m));
    case Live(msg, v) => SilentStepKeepsToken(s, OnLive(s, msg, v));
    case History(reply, v) => SilentStepKeepsToken(s, OnHistory(s, reply, v));
    case Typed(value) => SilentStepKeepsToken(s, Type(s, value));
    case Key(key) =>
      if key == "Enter" { SendKeepsToken(s); } else { SilentStepKeepsToken(s, s); }
    case Clicked =>
      if s.isConnected { SendKeepsToken(s); } else { SilentStepKeepsToken(s, s); }
  }

  /**
   * No event changes the token read at module load, and every frame sent
   * in any run of events carries that token: a later login or logout is
   * never seen by the chat.
   */
  lemma {:induction false} RunKeepsLoadedToken(s: Session, events: seq<Event>)
    ensures KeepsToken(s, Run(s, events))
    decreases |events|
  {
    if |events| == 0 {
      assert s.outbox[..|s.outbox|] == s.outbox;
    } else {
      var next := Apply(s, events[0]);
      ApplyKeepsToken(s, events[0]);
      RunKeepsLoadedToken(next, events[1..]);
      var r := Run(next, events[1..]);
      assert r.outbox[..|s.outbox|] == r.outbox[..|next.outbox|][..|s.outbox|];
    }
  }
}

=== FILE: collapsible.dfy ===
/**
 * What the in-play and schedule containers share beyond `Panel`: a
 * selected tab and a body that collapses, and the handlers
 * `toggleCollapse` and `handleTabChange` that both write identically.
 */
module Collapsible {
  import opened Wrappers
  import opened Panel

  datatype State<L> = State(fetch: Fetch<L>, index: int, collapsed: bool)

  /** The state on first render: loading, no error, no data, first tab. */
  function Init<L>(collapsed: bool): (s: State<L>)
    ensures s.fetch.loading && s.fetch.error == None && s.fetch.data == []
    ensures s.index == 0 && s.collapsed == collapsed
  {
    State(Panel.Initial(), 0, collapsed)
  }

  /** The start of the mount fetch: only `loading` and `error` change. */
  function FetchStart<L>(s: State<L>): (r: State<L>)
    ensures r.fetch.loading && r.fetch.error == None
    ensures r.fetch.data == s.fetch.data && r.index == s.index && r.collapsed == s.collapsed
  {
    s.(fetch := Begin(s.fetch))
  }

  /** `toggleCollapse`. */
  function ToggleCollapse<L>(s: State<L>): (r: State<L>)
    ensures r.collapsed != s.collapsed
    ensures r.fetch == s.fetch && r.index == s.index
  {
    s.(collapsed := !s.collapsed)
  }

  /** `handleTabChange`: select the tab and expand the body if it was collapsed. */
  function TabChange<L>(s: State<L>, newIndex: int): (r: State<L>)
    ensures r.index == newIndex && !r.collapsed && r.fetch == s.fetch
  {
    var selected := s.(index := newIndex);
    if s.collapsed then ToggleCollapse(selected) else selected
  }

  /** What the container renders around the tab strip. */
  function View<L>(s: State<L>): View<L>
  {
    ViewOf(s.fetch, s.index)
  }

  /** Collapsing twice gives back the state it started from. */
  lemma ToggleCollapseInvolution<L>(s: State<L>)
    ensures ToggleCollapse(ToggleCollapse(s)) == s
  {
  }
}

=== FILE: comment_section.dfy ===
/**
 * The comment box component: the logged-in flag taken at
 * mount, and a submit that re-reads the token, posts the comment with a
 * bearer header, and reports the outcome in an alert.
 */
module CommentSection {
  import opened Wrappers
  import opened Http
  import TokenStore

  const CreateUrl := "http://localhost:8082/matches/fixture/comment/create"
  const LoginRequired := "로그인이 필요합니다."
  const Created := "댓글이 작성되었습니다!"
  const CreateFailed := "댓글 작성에 실패했습니다."
  const FailurePrefix := "댓글 작성 중 오류가 발생했습니다: "

  /** The component's `leagueId`, `year` and `fixtureId` props. */
  datatype Props = Props(leagueId: string, year: string, fixtureId: string)

  datatype CommentBody = CommentBody(leagueId: string, year: string, fixtureId: string, comment: string)

  /** A `fetch` POST: url, headers in order, JSON body. */
  datatype Request = Request(url: string, headers: seq<(string, string)>, body: CommentBody)

  datatype State = State(comment: string, isLoggedIn: bool)

  /** Pressing submit: the alert raised (if any) and the request sent (if any). */
  datatype Submitted = Submitted(alert: Option<string>, request: Option<Request>)

  /** The mount effect: logged in exactly when a token is stored. */
  function Mount(store: TokenStore.Store): (s: State)
    ensures s.isLoggedIn <==> TokenStore.HasToken(store)
    ensures s.comment == ""
  {
    State("", TokenStore.HasToken(store))
  }

  /** The textarea's `onChange`: only the comment changes. */
  function Type(s: State, value: string): (r: State)
    ensures r.comment == value && r.isLoggedIn == s.isLoggedIn
  {
    s.(comment := value)
  }

  /**
   * The synchronous part of `handleCommentSubmit`: with no token now in
   * the store, alert and send nothing; otherwise post the comment with
   * the token as a bearer credential.
   */
  function SubmitStart(s: State, props: Props, store: TokenStore.Store): (r: Submitted)
    ensures r.request.Some? <==> TokenStore.HasToken(store)
    ensures r.request.None? ==> r.alert == Some(LoginRequired)
    ensures r.request.Some? ==>
              && r.alert == None
              && r.request.value.url == CreateUrl
              && ("Authorization", "Bearer " + store.value) in r.request.value.headers
              && ("Content-Type", "application/json") in r.request.value.headers
              && r.request.value.body == CommentBody(props.leagueId, props.year, props.fixtureId, s.comment)
  {
    if !TokenStore.HasToken(store) then Submitted(Some(LoginRequired), None)
    else
      var headers := [("Content-Type", "application/json"), ("Authorization", "Bearer " + store.value)];
      Submitted(None, Some(Request(CreateUrl, headers, CommentBody(props.leagueId, props.year, props.fixtureId, s.comment))))
  }

  /**
   * The reply: an ok status clears the comment and confirms; a non-ok
   * status or a network failure alerts the error and keeps the comment.
   */
  function SubmitDone(s: State, reply: FetchReply): (r: (State, string))
    ensures reply.FetchResponse? && Ok(reply.status) ==> r.0 == s.(comment := "") && r.1 == Created
    ensures reply.FetchResponse? && !Ok(reply.status) ==> r.0 == s && r.1 == FailurePrefix + CreateFailed
    ensures reply.FetchRejected? ==> r.0 == s && r.1 == FailurePrefix + reply.message
  {
    match reply
    case FetchResponse(status) =>
      if !Ok(status) then (s, FailurePrefix + CreateFailed)
      else (s.(comment := ""), Created)
    case FetchRejected(message) => (s, FailurePrefix + message)
  }

  /**
   * The logged-in flag is read once at mount but the token is re-read at
   * submit: a page that mounted logged in still sends nothing once the
   * token is gone.
   */
  lemma SubmitRereadsToken(mounted: TokenStore.Store, now: TokenStore.Store, props: Props, text: string)
    requires TokenStore.HasToken(mounted) && !TokenStore.HasToken(now)
    ensures Mount(mounted).isLoggedIn
    ensures SubmitStart(Type(Mount(mounted), text), props, now) == Submitted(Some(LoginRequired), None)
  {
  }

  /**
   * A failed post keeps the comment, so submitting again sends the same
   * request; a successful one clears it, so the next post carries "".
   */
  lemma RetryAfterReply(s: State, props: Props, store: TokenStore.Store, reply: FetchReply)
    requires TokenStore.HasToken(store)
    ensures !(reply.FetchResponse? && Ok(reply.status)) ==>
              SubmitStart(SubmitDone(s, reply).0, props, store) == SubmitStart(s, props, store)
    ensures reply.FetchResponse? && Ok(reply.status) ==>
              SubmitStart(SubmitDone(s, reply).0, props, store).request.value.body.comment == ""
  {
  }
}

=== FILE: forms.dfy ===
/**
 * The controlled form state of the signup and login pages: an object of
 * named string fields updated by `{ ...prev, [name]: value }`.
 */
module Forms {

  /** The form object; a field the object lacks reads as `undefined`, falsy like "". */
  type Form = map<string, string>

  /** `form[name]`, with a missing field read as "". */
  function Field(f: Form, name: string): string {
    if name in f then f[name] else ""
  }

  /** A form holding "" in each of the given fields. */
  function Blank(names: seq<string>): (f: Form)
    ensures f.Keys == set n | n in names
    ensures forall n :: n in f ==> f[n] == ""
  {
    map n | n in names :: ""
  }

  /** `handleChange`: the named field takes the new value and every other field keeps its own. */
  function Change(f: Form, name: string, value: string): (r: Form)
    ensures Field(r, name) == value
    ensures forall n :: n != name ==> Field(r, n) == Field(f, n)
    ensures r.Keys == f.Keys + {name}
  {
    f[name := value]
  }

  /** Changing a field twice keeps only the second value. */
  lemma ChangeTwice(f: Form, name: string, v1: string, v2: string)
    ensures Change(Change(f, name, v1), name, v2) == Change(f, name, v2)
  {
  }

  /** Changes to different fields commute. */
  lemma ChangesCommute(f: Form, n1: string, v1: string, n2: string, v2: string)
    requires n1 != n2
    ensures Change(Change(f, n1, v1), n2, v2) == Change(Change(f, n2, v2), n1, v1)
  {
  }
}

=== FILE: home.dfy ===
/**
 * The home page's own logic: the logged-in flag, logout, which controls
 * appear, and the attendance button that does nothing yet.
 */
module Home {
  import opened Wrappers
  import TokenStore

  const LogoutNotice := "로그아웃 되었습니다."

  datatype State = State(isLoggedIn: bool)

  /** Which of the page's controls are rendered. */
  datatype Controls = Controls(signupLink: bool, loginLink: bool, logoutButton: bool, attendanceButton: bool)

  /** Logging out: the page state, the token store, and the alert raised. */
  datatype LoggedOut = LoggedOut(state: State, store: TokenStore.Store, alert: string)

  /** The mount effect: logged in exactly when a token is stored. */
  function Mount(store: TokenStore.Store): (s: State)
    ensures s.isLoggedIn <==> TokenStore.HasToken(store)
  {
    State(TokenStore.HasToken(store))
  }

  /** `handleLogout`: remove the token, clear the flag, confirm. */
  function Logout(s: State, store: TokenStore.Store): (r: LoggedOut)
    ensures !r.state.isLoggedIn && r.alert == LogoutNotice
    ensures r.store == None && !TokenStore.HasToken(r.store)
  {
    LoggedOut(State(false), TokenStore.Clear(), LogoutNotice)
  }

  /** The signup and login links exactly when logged out, the logout button exactly when logged in. */
  function ControlsOf(s: State): (c: Controls)
    ensures c.signupLink <==> !s.isLoggedIn
    ensures c.loginLink <==> !s.isLoggedIn
    ensures c.logoutButton <==> s.isLoggedIn
    ensures c.attendanceButton
  {
    Controls(!s.isLoggedIn, !s.isLoggedIn, s.isLoggedIn, true)
  }

  /** `handleAttendance`: an empty handler. */
  function Attendance(s: State): (r: State)
    ensures r == s
  {
    s
  }

  /** The logout button and the login links are never shown together. */
  lemma ControlsExclusive(s: State)
    ensures var c := ControlsOf(s); c.logoutButton != c.loginLink && c.logoutButton != c.signupLink
  {
  }
}

=== FILE: http.dfy ===
/**
 * How the components see a request's outcome. Transport and server
 * behaviour are inputs: a reply is whatever came back.
 */
module Http {
  import opened Wrappers

  /**
   * An axios reply: a response with a status code and a JSON body (`None`
   * when the body is empty, so that reading a field of it gives
   * `undefined`), or no response at all (network failure).
   */
  datatype Reply<D> = Response(status: int, body: Option<D>) | NoResponse

  /** axios's default `validateStatus`: the promise resolves exactly on 2xx. */
  predicate Resolves(status: int) {
    200 <= status < 300
  }

  /** The reply reaches the code after `await` rather than the `catch` block. */
  predicate Resolved<D>(reply: Reply<D>) {
    reply.Response? && Resolves(reply.status)
  }

  /** The reply is a rejection carrying a response with a non-empty body. */
  predicate RejectedWithBody<D>(reply: Reply<D>) {
    reply.Response? && !Resolves(reply.status) && reply.body.Some?
  }

  /**
   * A `fetch` reply: `fetch` rejects only when no response arrives
   * (with the platform's error message); any status resolves it.
   */
  datatype FetchReply = FetchResponse(status: int) | FetchRejected(message: string)

  /** `response.ok`. */
  predicate Ok(status: int) {
    200 <= status <= 299
  }
}

=== FILE: in_play_container.dfy ===
/**
 * The "in play" container: fetches the leagues with matches in progress,
 * opens on the first league that has any, and shows the selected league
 * below a tab strip whose body can be collapsed.
 */
module InPlayContainer {
  import opened Wrappers
  import opened Http
  import opened Panel
  import opened Collapsible
  import Schedule

  /** A league entry of the in-play list; only its fixtures matter to the container. */
  datatype League = League(id: int, name: string, fixtures: Option<seq<Schedule.Fixture>>)

  type State = Collapsible.State<League>

  /** `league.fixtures && league.fixtures.length > 0`. */
  predicate HasLive(l: League) {
    l.fixtures.Some? && |l.fixtures.value| > 0
  }

  /** `leagues.findIndex(HasLive)`: the first league with live fixtures, or -1. */
  function FindLive(leagues: seq<League>): (r: int)
    ensures -1 <= r < |leagues|
    ensures r >= 0 ==> HasLive(leagues[r])
    ensures r >= 0 ==> forall j :: 0 <= j < r ==> !HasLive(leagues[j])
    ensures r == -1 ==> forall j :: 0 <= j < |leagues| ==> !HasLive(leagues[j])
  {
    if |leagues| == 0 then -1
    else if HasLive(leagues[0]) then 0
    else
      var k := FindLive(leagues[1..]);
      if k == -1 then -1 else k + 1
  }

  /**
   * The tab opened after a successful fetch: the smallest index of a league
   * with live fixtures, or 0 when none has any.
   */
  function DefaultIndex(leagues: seq<League>): (r: int)
    ensures 0 <= r && (|leagues| > 0 ==> r < |leagues|)
    ensures (exists j :: 0 <= j < |leagues| && HasLive(leagues[j])) ==>
              HasLive(leagues[r]) && forall j :: 0 <= j < r ==> !HasLive(leagues[j])
    ensures (forall j :: 0 <= j < |leagues| ==> !HasLive(leagues[j])) ==> r == 0
  {
    var i := FindLive(leagues);
    if i != -1 then i else 0
  }

  /** The state on first render: loading, no error, no data, first tab, expanded. */
  function Init(): (s: State)
    ensures s.fetch.loading && s.fetch.error == None && s.fetch.data == []
    ensures s.index == 0 && !s.collapsed
  {
    Collapsible.Init(false)
  }

  /**
   * The completion of `fetchInPlayMatches`: on success the list (or [])
   * is stored and the default tab selected; on failure the error is set
   * and data and tab stay; `loading` ends false either way.
   */
  function FetchDone(s: State, reply: Reply<ListBody<League>>): (r: State)
    ensures !r.fetch.loading && r.collapsed == s.collapsed
    ensures Resolved(reply) ==>
              && r.fetch.data == Loaded(reply).value
              && r.index == DefaultIndex(r.fetch.data)
              && r.fetch.error == s.fetch.error
    ensures !Resolved(reply) ==>
              r.fetch.error == Some(LoadError) && r.fetch.data == s.fetch.data && r.index == s.index
  {
    var loaded := Loaded(reply);
    var index := if loaded.Some? then DefaultIndex(loaded.value) else s.index;
    s.(fetch := Finish(s.fetch, reply), index := index)
  }

  /**
   * After mounting and a successful fetch of a non-empty list, the content
   * shown is the first league with live fixtures (or the first league).
   */
  lemma MountShowsDefaultLeague(reply: Reply<ListBody<League>>)
    requires Resolved(reply) && |Loaded(reply).value| > 0
    ensures var leagues := Loaded(reply).value;
            Collapsible.View(FetchDone(Collapsible.FetchStart(Init()), reply)) == Content(Some(leagues[DefaultIndex(leagues)]))
  {
  }
}

=== FILE: league_ranking_container.dfy ===
/**
 * The league ranking container: fetches every league's standings and
 * shows the selected league's table under a tab strip.
 */
module LeagueRankingContainer {
  import opened Wrappers
  import opened Http
  import opened Panel

  /** One row of a standings table. */
  datatype Standing = Standing(rank: int, teamName: string, points: int)

  /** One league's standings as the ranking endpoint returns it. */
  datatype LeagueRanking = LeagueRanking(leagueId: int, name: string, standings: seq<Standing>)

  datatype State = State(fetch: Fetch<LeagueRanking>, index: int)

  /** The state on first render: loading, no error, no data, first tab. */
  function Init(): (s: State)
    ensures s.fetch.loading && s.fetch.error == None && s.fetch.data == [] && s.index == 0
  {
    State(Panel.Initial(), 0)
  }

  /** The start of `fetchLeagueRankings`. */
  function FetchStart(s: State): (r: State)
    ensures r.fetch.loading && r.fetch.error == None && r.fetch.data == s.fetch.data && r.index == s.index
  {
    s.(fetch := Begin(s.fetch))
  }

  /** The completion of `fetchLeagueRankings`: the list (or []) on success, the error text on failure. */
  function FetchDone(s: State, reply: Reply<ListBody<LeagueRanking>>): (r: State)
    ensures !r.fetch.loading && r.index == s.index
    ensures Resolved(reply) ==> r.fetch.data == Loaded(reply).value && r.fetch.error == s.fetch.error
    ensures !Resolved(reply) ==> r.fetch.error == Some(LoadError) && r.fetch.data == s.fetch.data
  {
    s.(fetch := Finish(s.fetch, reply))
  }

  /** `handleTabChange`: only the selected index changes. */
  function TabChange(s: State, newIndex: int): (r: State)
    ensures r.index == newIndex && r.fetch == s.fetch
  {
    s.(index := newIndex)
  }

  /** What the container renders. */
  function View(s: State): View<LeagueRanking>
  {
    ViewOf(s.fetch, s.index)
  }

  /**
   * The list handed to the ranking table: always exactly one entry, the
   * selected league (`undefined` past the end of the list).
   */
  function RankingInput(s: State): (r: seq<Option<LeagueRanking>>)
    ensures |r| == 1
    ensures 0 <= s.index < |s.fetch.data| ==> r[0] == Some(s.fetch.data[s.index])
    ensures !(0 <= s.index < |s.fetch.data|) ==> r[0] == None
  {
    [Selected(s.fetch.data, s.index)]
  }

  /** Switching tabs never touches the fetched data nor the loading/error state. */
  lemma TabChangeKeepsView(s: State, i: int, j: int)
    ensures TabChange(TabChange(s, i), j) == TabChange(s, j)
    ensures View(TabChange(s, i)).Spinner? == View(s).Spinner?
    ensures View(TabChange(s, i)).ErrorText? == View(s).ErrorText?
  {
  }

  /**
   * After a tab change the ranking table receives the league the tab
   * selects, and whenever the content view shows it is the same league.
   */
  lemma TabFeedsRanking(s: State, i: int)
    ensures RankingInput(TabChange(s, i)) == [Selected(s.fetch.data, i)]
    ensures View(TabChange(s, i)).Content? ==> View(TabChange(s, i)).selected == RankingInput(TabChange(s, i))[0]
  {
  }
}

=== FILE: login.dfy ===
/**
 * The login page: both fields required, the credentials posted, and the
 * returned token written to the token store before going home.
 */
module Login {
  import opened Wrappers
  import opened Text
  import opened Http
  import opened Forms
  import TokenStore

  const MissingCredentials := "이메일과 비밀번호를 모두 입력해주세요."
  const LoginRejected := "로그인에 실패했습니다. 다시 시도해주세요."
  const LoginFailed := "로그인에 실패했습니다."
  const LoginTrouble := "로그인 과정에서 문제가 발생했습니다. 잠시 후 다시 시도해주세요."
  const HomePath := "/"

  /** The login reply body: a token on success, a message on error. */
  datatype LoginBody = LoginBody(token: Option<string>, message: Option<string>)

  datatype Credentials = Credentials(email: string, password: string)

  datatype State = State(form: Form, error: string)

  datatype Submitted = Submitted(state: State, request: Option<Credentials>)

  /** The outcome of the reply: the page, the token store, and where the router was sent (if anywhere). */
  datatype Finished = Finished(state: State, store: TokenStore.Store, navigate: Option<string>)

  function Init(): (s: State)
    ensures Field(s.form, "email") == "" && Field(s.form, "password") == "" && s.error == ""
  {
    State(Blank(["email", "password"]), "")
  }

  /** `handleChange`. */
  function Edit(s: State, name: string, value: string): (r: State)
    ensures Field(r.form, name) == value
    ensures forall n :: n != name ==> Field(r.form, n) == Field(s.form, n)
    ensures r.error == s.error
  {
    s.(form := Change(s.form, name, value))
  }

  /** The synchronous part of `handleSubmit`: clear the error, require both fields, send them. */
  function SubmitStart(s: State): (r: Submitted)
    ensures r.state.form == s.form
    ensures r.request.Some? <==> Field(s.form, "email") != "" && Field(s.form, "password") != ""
    ensures r.request.None? ==> r.state.error == MissingCredentials
    ensures r.request.Some? ==>
              r.state.error == "" && r.request.value == Credentials(Field(s.form, "email"), Field(s.form, "password"))
  {
    var email, password := Field(s.form, "email"), Field(s.form, "password");
    if email == "" || password == "" then Submitted(s.(error := MissingCredentials), None)
    else Submitted(s.(error := ""), Some(Credentials(email, password)))
  }

  /** A reply that logs the user in: status 200 with a non-empty token. */
  predicate Accepted(reply: Reply<LoginBody>) {
    reply.Response? && reply.status == 200 && reply.body.Some? && TruthyOpt(reply.body.value.token)
  }

  /**
   * The reply to the login request: an accepted reply stores the token and
   * navigates home; any other resolved reply shows the "login failed,
   * retry" text; a rejection with a body shows the server's message or a
   * fallback, one without a body the generic text. Only an accepted reply
   * touches the store.
   */
  function SubmitDone(s: State, store: TokenStore.Store, reply: Reply<LoginBody>): (r: Finished)
    ensures r.navigate.Some? <==> Accepted(reply)
    ensures Accepted(reply) ==>
              r.store == Some(reply.body.value.token.value) && TokenStore.HasToken(r.store)
              && r.navigate == Some(HomePath) && r.state == s
    ensures !Accepted(reply) ==> r.store == store && r.state.form == s.form && r.state.error != ""
    ensures Resolved(reply) && !Accepted(reply) ==> r.state.error == LoginRejected
    ensures RejectedWithBody(reply) ==> r.state.error == OrElse(reply.body.value.message, LoginFailed)
    ensures !Resolved(reply) && !RejectedWithBody(reply) ==> r.state.error == LoginTrouble
  {
    if Resolved(reply) then
      if reply.status == 200 && reply.body.Some? && reply.body.value.token.Some? && reply.body.value.token.value != "" then
        Finished(s, TokenStore.Write(reply.body.value.token.value), Some(HomePath))
      else Finished(s.(error := LoginRejected), store, None)
    else if reply.Response? && reply.body.Some? then
      Finished(s.(error := OrElse(reply.body.value.message, LoginFailed)), store, None)
    else Finished(s.(error := LoginTrouble), store, None)
  }

  /** A 2xx reply other than 200, even carrying a token, stores nothing. */
  lemma Non200TokenIgnored(s: State, store: TokenStore.Store, status: int, token: string)
    requires Resolves(status) && status != 200
    ensures SubmitDone(s, store, Response(status, Some(LoginBody(Some(token), None)))).store == store
  {
  }

  /**
   * Filling both fields from a fresh page and submitting posts exactly
   * those credentials when both are non-empty, and nothing otherwise.
   */
  lemma EditThenSubmit(email: string, password: string)
    ensures var r := SubmitStart(Edit(Edit(Init(), "email", email), "password", password));
            && (r.request == Some(Credentials(email, password)) <==> email != "" && password != "")
            && (r.request.None? <==> email == "" || password == "")
  {
  }
}

=== FILE: panel.dfy ===
/**
 * What the three dashboard containers (in-play, schedule, league ranking)
 * share: a loading/error/data record filled by one POST on mount, the
 * view priority loading > error > no data > content, and the selected
 * league read out of the list by index.
 */
module Panel {
  import opened Wrappers
  import opened Text
  import opened Http

  /** The error text every container shows when its fetch fails. */
  const LoadError := "데이터를 불러오는 중 오류가 발생했습니다."

  /** The body of a list endpoint: `{ response: [...] }`, the list possibly absent. */
  datatype ListBody<L> = ListBody(response: Option<seq<L>>)

  /** The `loading`, `error` and data state of a container. */
  datatype Fetch<L> = Fetch(loading: bool, error: Option<string>, data: seq<L>)

  /** The state before the mount effect has finished: loading, no error, no data. */
  function Initial<L>(): (f: Fetch<L>)
    ensures f.loading && f.error == None && f.data == []
  {
    Fetch(true, None, [])
  }

  /** The start of the fetch: `setLoading(true); setError(null)`. */
  function Begin<L>(f: Fetch<L>): (r: Fetch<L>)
    ensures r.loading && r.error == None && r.data == f.data
  {
    f.(loading := true, error := None)
  }

  /**
   * `response.data.response || []` when the request resolves; `None` when
   * the `catch` block runs instead.
   */
  function Loaded<L>(reply: Reply<ListBody<L>>): (r: Option<seq<L>>)
    ensures r.Some? <==> Resolved(reply)
    ensures Resolved(reply) && reply.body.Some? && reply.body.value.response.Some? ==>
              r == reply.body.value.response
    ensures Resolved(reply) && !(reply.body.Some? && reply.body.value.response.Some?) ==> r == Some([])
  {
    if !Resolved(reply) then None
    else if reply.body.Some? then Some(reply.body.value.response.GetOr([]))
    else Some([])
  }

  /**
   * The end of the fetch: the list is stored on success, the error text is
   * set on failure (keeping the old data), and `loading` is cleared on
   * every path (the `finally` block).
   */
  function Finish<L>(f: Fetch<L>, reply: Reply<ListBody<L>>): (r: Fetch<L>)
    ensures !r.loading
    ensures Resolved(reply) ==> r.data == Loaded(reply).value && r.error == f.error
    ensures !Resolved(reply) ==> r.error == Some(LoadError) && r.data == f.data
  {
    var loaded := Loaded(reply);
    var stored := if loaded.Some? then f.(data := loaded.value) else f.(error := Some(LoadError));
    stored.(loading := false)
  }

  /** `data[index]`: the element, or `undefined` for an index outside the list. */
  function Selected<L>(data: seq<L>, index: int): (r: Option<L>)
    ensures r.Some? <==> 0 <= index < |data|
    ensures r.Some? ==> r.value == data[index]
  {
    if 0 <= index < |data| then Some(data[index]) else None
  }

  /** The four things a container can show. */
  datatype View<L> = Spinner | ErrorText(message: string) | Empty | Content(selected: Option<L>)

  /**
   * The render function's early returns: a spinner while loading, then the
   * error text when there is one, then the "no data" text for an empty
   * list, and only then the selected league.
   */
  function ViewOf<L>(f: Fetch<L>, index: int): (v: View<L>)
    ensures v.Spinner? <==> f.loading
    ensures v.ErrorText? <==> !f.loading && TruthyOpt(f.error)
    ensures v.ErrorText? ==> v.message == f.error.value
    ensures v.Empty? <==> !f.loading && !TruthyOpt(f.error) && |f.data| == 0
    ensures v.Content? ==> |f.data| > 0 && v.selected == Selected(f.data, index)
  {
    if f.loading then Spinner
    else if f.error.Some? && f.error.value != "" then ErrorText(f.error.value)
    else if |f.data| == 0 then Empty
    else Content(Selected(f.data, index))
  }

  /**
   * One whole fetch cycle never leaves the spinner up: a failure shows the
   * error text, a success shows the data (or the "no data" text for an
   * empty list).
   */
  lemma FetchCycleView<L>(f: Fetch<L>, reply: Reply<ListBody<L>>, index: int)
    ensures var v := ViewOf(Finish(Begin(f), reply), index);
            && !v.Spinner?
            && (!Resolved(reply) <==> v == ErrorText(LoadError))
            && (Resolved(reply) && |Loaded(reply).value| == 0 ==> v == Empty)
            && (Resolved(reply) && |Loaded(reply).value| > 0 ==> v == Content(Selected(Loaded(reply).value, index)))
  {
  }
}

=== FILE: schedule.dfy ===
/**
 * The fixture table of one league: the "no data" guard, fixtures ordered
 * by kickoff timestamp, winner highlighting, score and name fallbacks, the
 * Korea-time shift of the kickoff instant, and the detail route a row
 * click navigates to.
 */
module Schedule {
  import opened Wrappers
  import opened Text
  import opened Sorting

  /** The +9h shift to Korea Standard Time, in milliseconds (9 * 60 minutes * 60 * 1000). */
  const KoreaOffsetMs: int := 9 * 60 * 60 * 1000

  /** The mark appended to the winning side's name. */
  const WinMark := " \U{2705}"

  /** The fallback shown for a missing team or venue name. */
  const NoInfo := "정보 없음"

  /** The text shown for a missing score. */
  const NoScore := "-"

  /** A score as JSON delivers it: absent (`undefined`), `null`, or a number. */
  datatype JsScore = Undefined | Null | Num(n: int)

  datatype ScorePair = ScorePair(home: JsScore, away: JsScore)
  datatype Team = Team(name: Option<string>)
  datatype Venue = Venue(name: Option<string>, city: Option<string>)

  /**
   * `fixtureDateTime`: `date` is the kickoff instant the date string
   * denotes (milliseconds), `timestamp` the sort key.
   */
  datatype FixtureDateTime = FixtureDateTime(date: int, dateTimeZone: string, timestamp: int)

  datatype Fixture = Fixture(
    id: int,
    dateTime: FixtureDateTime,
    venue: Option<Venue>,
    homeTeam: Option<Team>,
    awayTeam: Option<Team>,
    fullTimeScore: Option<ScorePair>
  )

  datatype LeagueInfo = LeagueInfo(id: int, year: int)

  /** The `data` prop: a league header and its fixtures, either possibly missing. */
  datatype ScheduleData = ScheduleData(league: Option<LeagueInfo>, fixtures: Option<seq<Fixture>>)

  /** The names the highlighting returns. */
  datatype Highlight = Highlight(home: string, away: string)

  /** One table row as displayed, with the fixture it shows. */
  datatype Row = Row(
    fixture: Fixture,
    kickoff: int,       // the shifted instant the date cell formats
    venue: string,
    city: string,
    home: string,
    away: string,
    score: string
  )

  datatype ScheduleView = NoData | Table(rows: seq<Row>)

  /**
   * `convertToKoreanTime`: the instant moved forward by nine hours; the
   * time-zone argument is not used. Locale formatting is not modelled.
   */
  function ToKoreanTime(instant: int, dateTimeZone: string): (r: int)
    ensures r - instant == 32_400_000
  {
    instant + KoreaOffsetMs
  }

  /** JavaScript's `ToNumber` on a score: `undefined` is NaN (`None`), `null` is 0. */
  function ToNumber(x: JsScore): Option<int> {
    match x
    case Undefined => None
    case Null => Some(0)
    case Num(n) => Some(n)
  }

  /** JavaScript's `a > b` on scores: false whenever either side is NaN. */
  predicate JsGreater(a: JsScore, b: JsScore) {
    ToNumber(a).Some? && ToNumber(b).Some? && ToNumber(a).value > ToNumber(b).value
  }

  /**
   * `getHighlightedTeam`: the side with the strictly greater score gets the
   * mark; a draw or an incomparable score marks nobody.
   */
  function GetHighlightedTeam(homeScore: JsScore, awayScore: JsScore, homeName: string, awayName: string): (r: Highlight)
    ensures r.home == homeName || r.away == awayName
    ensures r.home == homeName || r.home == homeName + WinMark
    ensures r.away == awayName || r.away == awayName + WinMark
    ensures r.home == homeName + WinMark <==> JsGreater(homeScore, awayScore)
    ensures r.away == awayName + WinMark <==> JsGreater(awayScore, homeScore)
  {
    if JsGreater(homeScore, awayScore) then Highlight(homeName + WinMark, awayName)
    else if JsGreater(awayScore, homeScore) then Highlight(homeName, awayName + WinMark)
    else Highlight(homeName, awayName)
  }

  /** `fullTimeScore?.home`. */
  function HomeScore(f: Fixture): JsScore {
    if f.fullTimeScore.Some? then f.fullTimeScore.value.home else Undefined
  }

  /** `fullTimeScore?.away`. */
  function AwayScore(f: Fixture): JsScore {
    if f.fullTimeScore.Some? then f.fullTimeScore.value.away else Undefined
  }

  /** `score ?? "-"`: a number is shown in decimal, `null` and `undefined` as "-". */
  function ScoreText(x: JsScore): (r: string)
    ensures r == NoScore <==> !x.Num?
    ensures x.Num? ==> ParseInt(r) == Some(x.n)
  {
    match x
    case Num(n) =>
      IntToStringRoundTrip(n);
      IntToString(n)
    case _ => NoScore
  }

  /** `team?.name || "정보 없음"`. */
  function TeamName(t: Option<Team>): string {
    OrElse(if t.Some? then t.value.name else None, NoInfo)
  }

  /** `fixture.venue?.name || "정보 없음"`. */
  function VenueName(v: Option<Venue>): string {
    OrElse(if v.Some? then v.value.name else None, NoInfo)
  }

  /** `fixture.venue?.city || ""`. */
  function VenueCity(v: Option<Venue>): string {
    OrElse(if v.Some? then v.value.city else None, "")
  }

  function RowOf(f: Fixture): (r: Row)
    ensures r.fixture == f
    ensures r.kickoff == f.dateTime.date + 32_400_000
    ensures r.venue == VenueName(f.venue) && r.city == VenueCity(f.venue)
    ensures r.home == TeamName(f.homeTeam) || r.home == TeamName(f.homeTeam) + WinMark
    ensures r.away == TeamName(f.awayTeam) || r.away == TeamName(f.awayTeam) + WinMark
    ensures r.home == TeamName(f.homeTeam) + WinMark <==> JsGreater(HomeScore(f), AwayScore(f))
    ensures r.away == TeamName(f.awayTeam) + WinMark <==> JsGreater(AwayScore(f), HomeScore(f))
    ensures r.score == ScoreText(HomeScore(f)) + " - " + ScoreText(AwayScore(f))
  {
    var names := GetHighlightedTeam(HomeScore(f), AwayScore(f), TeamName(f.homeTeam), TeamName(f.awayTeam));
    Row(f, ToKoreanTime(f.dateTime.date, f.dateTime.dateTimeZone), VenueName(f.venue), VenueCity(f.venue),
        names.home, names.away, ScoreText(HomeScore(f)) + " - " + ScoreText(AwayScore(f)))
  }

  function RowsOf(fs: seq<Fixture>): (r: seq<Row>)
    ensures |r| == |fs|
    ensures forall i :: 0 <= i < |fs| ==> r[i] == RowOf(fs[i])
  {
    if |fs| == 0 then [] else [RowOf(fs[0])] + RowsOf(fs[1..])
  }

  function KickoffTimestamp(f: Fixture): int {
    f.dateTime.timestamp
  }

  /** `sortedFixtures`: a sorted copy; the prop itself is left as it was. */
  function SortedFixtures(fixtures: seq<Fixture>): (r: seq<Fixture>)
    ensures multiset(r) == multiset(fixtures)
    ensures SortedBy(r, KickoffTimestamp)
    ensures forall t :: WithKey(r, KickoffTimestamp, t) == WithKey(fixtures, KickoffTimestamp, t)
  {
    var sorted := SortBy(fixtures, KickoffTimestamp);
    assert forall t :: WithKey(sorted, KickoffTimestamp, t) == WithKey(fixtures, KickoffTimestamp, t) by {
      forall t ensures WithKey(sorted, KickoffTimestamp, t) == WithKey(fixtures, KickoffTimestamp, t) {
        SortByStable(fixtures, KickoffTimestamp, t);
      }
    }
    sorted
  }

  /** The "no data" guard: `!data || !data.league || !data.fixtures || data.fixtures.length === 0`. */
  predicate Renderable(data: Option<ScheduleData>) {
    data.Some? && data.value.league.Some? && data.value.fixtures.Some? && |data.value.fixtures.value| > 0
  }

  /**
   * The component's output: the "no data" message, or one row per fixture
   * in kickoff order.
   */
  function Render(data: Option<ScheduleData>): (v: ScheduleView)
    ensures v.NoData? <==> (data.None? || data.value.league.None? || data.value.fixtures.None? || |data.value.fixtures.value| == 0)
    ensures v.Table? ==>
              var fixtures := data.value.fixtures.value;
              && |v.rows| == |fixtures|
              && (forall i :: 0 <= i < |v.rows| ==> v.rows[i] == RowOf(v.rows[i].fixture))
              && (forall i, j :: 0 <= i < j < |v.rows| ==>
                    v.rows[i].fixture.dateTime.timestamp <= v.rows[j].fixture.dateTime.timestamp)
              && multiset(FixturesOf(v.rows)) == multiset(fixtures)
  {
    if !Renderable(data) then NoData
    else
      var sorted := SortedFixtures(data.value.fixtures.value);
      var rows := RowsOf(sorted);
      assert FixturesOf(rows) == sorted;
      Table(rows)
  }

  /** The fixtures the rows show, in row order. */
  function FixturesOf(rows: seq<Row>): (r: seq<Fixture>)
    ensures |r| == |rows|
    ensures forall i :: 0 <= i < |rows| ==> r[i] == rows[i].fixture
  {
    if |rows| == 0 then [] else [rows[0].fixture] + FixturesOf(rows[1..])
  }

  /** `handleRowClick`: the route of the fixture's detail page. */
  function DetailPath(league: LeagueInfo, fixtureId: int): string {
    "/fixtures/detail/" + IntToString(league.id) + "/" + IntToString(league.year) + "/" + IntToString(fixtureId)
  }

  const DetailPrefix := "/fixtures/detail/"

  /**
   * The route parameters `leagueId`, `year` and `fixtureId` the detail page
   * reads back from a path (`None` for any path not of that shape).
   */
  function ParseDetailPath(path: string): Option<(int, int, int)> {
    if |path| < |DetailPrefix| || path[..|DetailPrefix|] != DetailPrefix then None
    else
      var parts := SplitOn(path[|DetailPrefix|..], '/');
      if |parts| != 3 then None
      else
        match (ParseInt(parts[0]), ParseInt(parts[1]), ParseInt(parts[2]))
        case (Some(l), Some(y), Some(f)) => Some((l, y, f))
        case _ => None
  }

  lemma NoSlashInNumeral(n: int)
    ensures '/' !in IntToString(n)
  {
  }

  /**
   * A row click's route carries the league id, the season and the fixture
   * id, and the detail page reads exactly those three back.
   */
  lemma DetailPathRoundTrip(league: LeagueInfo, fixtureId: int)
    ensures ParseDetailPath(DetailPath(league, fixtureId)) == Some((league.id, league.year, fixtureId))
  {
    var l, y, f := IntToString(league.id), IntToString(league.year), IntToString(fixtureId);
    var path := DetailPath(league, fixtureId);
    assert path == DetailPrefix + (l + ['/'] + (y + ['/'] + f));
    assert path[..|DetailPrefix|] == DetailPrefix;
    assert path[|DetailPrefix|..] == l + ['/'] + (y + ['/'] + f);
    SplitNumerals(l, y, f, league.id, league.year, fixtureId);
    IntToStringRoundTrip(league.id);
    IntToStringRoundTrip(league.year);
    IntToStringRoundTrip(fixtureId);
  }

  lemma SplitNumerals(l: string, y: string, f: string, a: int, b: int, c: int)
    requires l == IntToString(a) && y == IntToString(b) && f == IntToString(c)
    ensures SplitOn(l + ['/'] + (y + ['/'] + f), '/') == [l, y, f]
  {
    NoSlashInNumeral(a);
    NoSlashInNumeral(b);
    NoSlashInNumeral(c);
    SplitOnFirst(l, '/', y + ['/'] + f);
    SplitOnFirst(y, '/', f);
  }

  /** A missing score on either side makes both comparisons false: nobody is marked. */
  lemma MissingScoreMarksNobody(homeScore: JsScore, awayScore: JsScore, homeName: string, awayName: string)
    requires homeScore == Undefined || awayScore == Undefined
    ensures GetHighlightedTeam(homeScore, awayScore, homeName, awayName) == Highlight(homeName, awayName)
  {
  }

  /** A `null` score compares as 0, so a positive score on the other side wins against it, home or away. */
  lemma NullScoreComparesAsZero(n: int, homeName: string, awayName: string)
    requires n > 0
    ensures GetHighlightedTeam(Null, Num(n), homeName, awayName) == Highlight(homeName, awayName + WinMark)
    ensures GetHighlightedTeam(Num(n), Null, homeName, awayName) == Highlight(homeName + WinMark, awayName)
  {
  }

  /** Equal scores, including two `null`s, mark nobody. */
  lemma DrawMarksNobody(x: JsScore, homeName: string, awayName: string)
    ensures GetHighlightedTeam(x, x, homeName, awayName) == Highlight(homeName, awayName)
  {
  }

  /** The shift keeps kickoff order and does not depend on the zone argument. */
  lemma KoreanTimeMonotone(t1: int, t2: int, z1: string, z2: string)
    ensures t1 <= t2 <==> ToKoreanTime(t1, z1) <= ToKoreanTime(t2, z2)
    ensures ToKoreanTime(t1, z1) == ToKoreanTime(t1, z2)
  {
  }
}

=== FILE: schedule_container.dfy ===
/**
 * The schedule container: fetches each league's fixtures, shows one
 * league at a time under a tab strip, and starts collapsed.
 */
module ScheduleContainer {
  import opened Wrappers
  import opened Http
  import opened Panel
  import opened Collapsible
  import Schedule

  type State = Collapsible.State<Schedule.ScheduleData>

  /** The state on first render: loading, no error, no data, first tab, collapsed. */
  function Init(): (s: State)
    ensures s.fetch.loading && s.fetch.error == None && s.fetch.data == []
    ensures s.index == 0 && s.collapsed
  {
    Collapsible.Init(true)
  }

  /**
   * The completion of `fetchSchedules`: the list (or []) on success, the
   * error text on failure, `loading` false after both; the selected tab is
   * not reset.
   */
  function FetchDone(s: State, reply: Reply<ListBody<Schedule.ScheduleData>>): (r: State)
    ensures !r.fetch.loading && r.index == s.index && r.collapsed == s.collapsed
    ensures Resolved(reply) ==> r.fetch.data == Loaded(reply).value && r.fetch.error == s.fetch.error
    ensures !Resolved(reply) ==> r.fetch.error == Some(LoadError) && r.fetch.data == s.fetch.data
  {
    s.(fetch := Finish(s.fetch, reply))
  }

  /**
   * The fixture table inside the container: the `Schedule` component's
   * output for the selected league (`undefined` past the end of the list).
   */
  function Body(s: State): (r: Option<Schedule.ScheduleView>)
    ensures r.Some? <==> Collapsible.View(s).Content?
    ensures r.Some? ==> r.value == Schedule.Render(Selected(s.fetch.data, s.index))
  {
    var v := Collapsible.View(s);
    if v.Content? then Some(Schedule.Render(v.selected)) else None
  }

  /** A tab past the end of the list hands the table `undefined`, which shows "no data". */
  lemma TabPastEndShowsNoData(s: State, newIndex: int)
    requires !s.fetch.loading && s.fetch.error == None && |s.fetch.data| > 0
    requires newIndex >= |s.fetch.data|
    ensures Body(Collapsible.TabChange(s, newIndex)) == Some(Schedule.NoData)
  {
  }
}

=== FILE: signup.dfy ===
/**
 * The signup page: league and team pickers filled from the team list,
 * client-side validation in a fixed order, the account-creation request,
 * and the messages shown for each outcome.
 */
module Signup {
  import opened Wrappers
  import opened Text
  import opened Http
  import opened Forms

  const MissingFields := "모든 필드를 입력해주세요."
  const PasswordMismatch := "비밀번호 확인이 일치하지 않습니다."
  const SignupFailed := "회원가입에 실패했습니다."
  const SignupTrouble := "회원가입 중 문제가 발생했습니다. 잠시 후 다시 시도해주세요."
  const LeaguesUnavailable := "리그 정보를 불러오는데 실패했습니다."

  /** The six fields of the form, all "" at first. */
  const FieldNames := ["email", "password", "confirmPassword", "nickname", "league", "team"]

  datatype TeamEntry = TeamEntry(id: string, name: string)

  /** One entry of the team list: a league id and that league's teams. */
  datatype LeagueTeams = LeagueTeams(leagueId: string, teams: seq<TeamEntry>)

  datatype LeaguesBody = LeaguesBody(response: seq<LeagueTeams>)

  /** The body posted to create an account. */
  datatype SignupRequest = SignupRequest(email: string, password: string, nickname: string, favoriteTeamId: string)

  /** An error reply's body: `{ message }`. */
  datatype MessageBody = MessageBody(message: Option<string>)

  datatype State = State(form: Form, leagues: seq<LeagueTeams>, teams: seq<TeamEntry>, error: string, success: bool)

  /** The result of pressing submit: the new state, and the request sent if any. */
  datatype Submitted = Submitted(state: State, request: Option<SignupRequest>)

  function Init(): (s: State)
    ensures forall n :: n in FieldNames ==> n in s.form && s.form[n] == ""
    ensures s.leagues == [] && s.teams == [] && s.error == "" && !s.success
  {
    State(Blank(FieldNames), [], [], "", false)
  }

  /**
   * The team-list fetch on mount: a 200 reply stores the leagues; a
   * rejection sets the error text; any other resolved reply does nothing.
   */
  function LeaguesLoaded(s: State, reply: Reply<LeaguesBody>): (r: State)
    ensures Resolved(reply) && reply.status == 200 ==>
              r == s.(leagues := if reply.body.Some? then reply.body.value.response else [])
    ensures Resolved(reply) && reply.status != 200 ==> r == s
    ensures !Resolved(reply) ==> r == s.(error := LeaguesUnavailable)
  {
    if Resolved(reply) then
      if reply.status == 200 then s.(leagues := if reply.body.Some? then reply.body.value.response else [])
      else s
    else s.(error := LeaguesUnavailable)
  }

  /** `leagues.find(league => league.league.id === id)`. */
  function FindLeague(leagues: seq<LeagueTeams>, id: string): (r: Option<LeagueTeams>)
    ensures r.None? <==> forall i :: 0 <= i < |leagues| ==> leagues[i].leagueId != id
    ensures r.Some? ==> exists i :: 0 <= i < |leagues| && leagues[i] == r.value
                          && r.value.leagueId == id
                          && forall j :: 0 <= j < i ==> leagues[j].leagueId != id
  {
    if |leagues| == 0 then None
    else if leagues[0].leagueId == id then Some(leagues[0])
    else
      var r := FindLeague(leagues[1..], id);
      if r.Some? then
        ghost var i :| 0 <= i < |leagues[1..]| && leagues[1..][i] == r.value && r.value.leagueId == id
                        && forall j :: 0 <= j < i ==> leagues[1..][j].leagueId != id;
        assert leagues[i + 1] == r.value;
        r
      else r
  }

  /**
   * `handleLeagueChange`: the league field takes the id, the team choice is
   * cleared, and the team list becomes that league's teams (or empty).
   */
  function LeagueChange(s: State, id: string): (r: State)
    ensures Field(r.form, "league") == id && Field(r.form, "team") == ""
    ensures forall n :: n != "league" && n != "team" ==> Field(r.form, n) == Field(s.form, n)
    ensures FindLeague(s.leagues, id).Some? ==> r.teams == FindLeague(s.leagues, id).value.teams
    ensures FindLeague(s.leagues, id).None? ==> r.teams == []
    ensures r.leagues == s.leagues && r.error == s.error && r.success == s.success
  {
    var form := Change(Change(s.form, "league", id), "team", "");
    var selected := FindLeague(s.leagues, id);
    s.(form := form, teams := if selected.Some? then selected.value.teams else [])
  }

  /** `handleChange` on one of the text fields or the team picker. */
  function Edit(s: State, name: string, value: string): (r: State)
    ensures Field(r.form, name) == value
    ensures forall n :: n != name ==> Field(r.form, n) == Field(s.form, n)
    ensures r == s.(form := r.form)
  {
    s.(form := Change(s.form, name, value))
  }

  /** Every field the submit check reads is non-empty (the league is not among them). */
  predicate AllPresent(f: Form) {
    && Field(f, "email") != "" && Field(f, "password") != "" && Field(f, "confirmPassword") != ""
    && Field(f, "nickname") != "" && Field(f, "team") != ""
  }

  /**
   * The synchronous part of `handleSubmit`: clear the error and success
   * flag, check that all fields are filled, then that the passwords agree,
   * and only then send the request.
   */
  function SubmitStart(s: State): (r: Submitted)
    ensures r.state == s.(error := r.state.error, success := false)
    ensures !AllPresent(s.form) ==> r.state.error == MissingFields && r.request == None
    ensures AllPresent(s.form) && Field(s.form, "password") != Field(s.form, "confirmPassword") ==>
              r.state.error == PasswordMismatch && r.request == None
    ensures r.request.Some? <==>
              AllPresent(s.form) && Field(s.form, "password") == Field(s.form, "confirmPassword")
    ensures r.request.Some? ==>
              && r.state.error == ""
              && r.request.value == SignupRequest(Field(s.form, "email"), Field(s.form, "password"),
                                                  Field(s.form, "nickname"), Field(s.form, "team"))
  {
    var cleared := s.(error := "", success := false);
    var f := s.form;
    if Field(f, "email") == "" || Field(f, "password") == "" || Field(f, "confirmPassword") == ""
       || Field(f, "nickname") == "" || Field(f, "team") == ""
    then Submitted(cleared.(error := MissingFields), None)
    else if Field(f, "password") != Field(f, "confirmPassword")
    then Submitted(cleared.(error := PasswordMismatch), None)
    else Submitted(cleared, Some(SignupRequest(Field(f, "email"), Field(f, "password"), Field(f, "nickname"), Field(f, "team"))))
  }

  /**
   * The reply to the creation request: a 200 reply sets the success flag
   * and clears the form and the team list; another 2xx does nothing; a
   * rejection with a body shows the server's message or a fixed fallback;
   * a rejection without one shows the generic text.
   */
  function SubmitDone(s: State, reply: Reply<MessageBody>): (r: State)
    ensures Resolved(reply) && reply.status == 200 ==>
              && r.success && r.teams == [] && r.error == s.error && r.leagues == s.leagues
              && r.form.Keys == set n | n in FieldNames
              && forall n :: n in FieldNames ==> Field(r.form, n) == ""
    ensures Resolved(reply) && reply.status != 200 ==> r == s
    ensures RejectedWithBody(reply) ==>
              r == s.(error := if TruthyOpt(reply.body.value.message) then reply.body.value.message.value else SignupFailed)
    ensures !Resolved(reply) && !RejectedWithBody(reply) ==> r == s.(error := SignupTrouble)
  {
    if Resolved(reply) then
      if reply.status == 200 then s.(success := true, form := Blank(FieldNames), teams := [])
      else s
    else if reply.Response? && reply.body.Some? then s.(error := OrElse(reply.body.value.message, SignupFailed))
    else s.(error := SignupTrouble)
  }

  /**
   * The request depends only on email, password, nickname and team: the
   * league choice is never sent, and the confirmation only gates sending.
   */
  lemma RequestIgnoresLeague(s: State, league: string)
    ensures SubmitStart(Edit(s, "league", league)).request == SubmitStart(s).request
  {
  }

  /** Any missing field is reported even when the passwords also disagree: the checks run in order. */
  lemma MissingFieldsReportedFirst(s: State)
    requires !AllPresent(s.form)
    requires Field(s.form, "password") != Field(s.form, "confirmPassword")
    ensures SubmitStart(s).state.error == MissingFields && SubmitStart(s).request == None
  {
  }

  /** After a successful signup, submitting again fails validation without a request. */
  lemma SuccessThenResubmitIsRejected(s: State, reply: Reply<MessageBody>)
    requires Resolved(reply) && reply.status == 200
    ensures var again := SubmitStart(SubmitDone(s, reply));
            again.request == None && again.state.error == MissingFields
  {
  }

  /**
   * After a 200 team-list reply, choosing a listed league shows that
   * league's teams (the first entry with its id); before the list loads or
   * after it failed to load, no teams are offered.
   */
  lemma LoadThenPickLeague(s: State, reply: Reply<LeaguesBody>, i: int)
    requires Resolved(reply) && reply.status == 200 && reply.body.Some?
    requires 0 <= i < |reply.body.value.response|
    requires forall j :: 0 <= j < i ==> reply.body.value.response[j].leagueId != reply.body.value.response[i].leagueId
    ensures var leagues := reply.body.value.response;
            LeagueChange(LeaguesLoaded(s, reply), leagues[i].leagueId).teams == leagues[i].teams
  {
  }

  /** A failed team-list fetch leaves the league list empty, so every league choice offers no teams. */
  lemma FailedLoadOffersNoTeams(reply: Reply<LeaguesBody>, id: string)
    requires !Resolved(reply)
    ensures LeagueChange(LeaguesLoaded(Init(), reply), id).teams == []
  {
  }
}

=== FILE: sorting.dfy ===
/**
 * Stable sorting by an integer key, the behaviour of
 * `Array.prototype.sort` with a comparator `(a, b) => key(a) - key(b)`
 * (the sort is stable since ECMAScript 2019). Used for chat history and
 * for fixture lists.
 */
module Sorting {

  /** `s` is in non-decreasing key order. */
  predicate SortedBy<T>(s: seq<T>, key: T -> int) {
    forall i, j :: 0 <= i < j < |s| ==> key(s[i]) <= key(s[j])
  }

  /** The elements of `s` whose key is `k`, in their order in `s`. */
  function WithKey<T>(s: seq<T>, key: T -> int, k: int): seq<T> {
    if |s| == 0 then []
    else (if key(s[0]) == k then [s[0]] else []) + WithKey(s[1..], key, k)
  }

  /**
   * Puts `x` into the sorted `s` before the first element whose key is not
   * smaller, so that `x` stays ahead of the elements with an equal key.
   */
  function Insert<T>(x: T, s: seq<T>, key: T -> int): (r: seq<T>)
    ensures multiset(r) == multiset(s) + multiset{x}
  {
    if |s| == 0 || key(x) <= key(s[0]) then [x] + s
    else
      assert s == [s[0]] + s[1..];
      [s[0]] + Insert(x, s[1..], key)
  }

  /** Inserting into a sorted sequence keeps it sorted. */
  lemma {:induction false} InsertSorted<T>(x: T, s: seq<T>, key: T -> int)
    requires SortedBy(s, key)
    ensures SortedBy(Insert(x, s, key), key)
  {
    if |s| > 0 && key(x) > key(s[0]) {
      var rest := Insert(x, s[1..], key);
      assert SortedBy(s[1..], key) by {
        forall i, j | 0 <= i < j < |s[1..]| ensures key(s[1..][i]) <= key(s[1..][j]) {
          assert s[1..][i] == s[i + 1] && s[1..][j] == s[j + 1];
        }
      }
      InsertSorted(x, s[1..], key);
      forall i | 0 <= i < |rest| ensures key(s[0]) <= key(rest[i]) {
        assert rest[i] in multiset(rest);
        assert rest[i] in multiset(s[1..]) + multiset{x};
        if rest[i] != x {
          assert rest[i] in s[1..];
          var j :| 0 <= j < |s[1..]| && s[1..][j] == rest[i];
          assert s[j + 1] == rest[i];
        }
      }
      var r := [s[0]] + rest;
      forall i, j | 0 <= i < j < |r| ensures key(r[i]) <= key(r[j]) {
        if i > 0 {
          assert r[i] == rest[i - 1] && r[j] == rest[j - 1];
        } else {
          assert r[j] == rest[j - 1];
        }
      }
    }
  }

  /** The stable ascending sort of `s` by `key`. */
  function SortBy<T>(s: seq<T>, key: T -> int): (r: seq<T>)
    ensures multiset(r) == multiset(s)
    ensures SortedBy(r, key)
  {
    if |s| == 0 then []
    else
      assert s == [s[0]] + s[1..];
      var rest := SortBy(s[1..], key);
      InsertSorted(s[0], rest, key);
      Insert(s[0], rest, key)
  }

  lemma {:induction false} WithKeyAppend<T>(a: seq<T>, b: seq<T>, key: T -> int, k: int)
    ensures WithKey(a + b, key, k) == WithKey(a, key, k) + WithKey(b, key, k)
  {
    if |a| == 0 {
      assert a + b == b;
    } else {
      assert (a + b)[0] == a[0];
      assert (a + b)[1..] == a[1..] + b;
      WithKeyAppend(a[1..], b, key, k);
    }
  }

  lemma {:induction false} InsertWithKey<T>(x: T, s: seq<T>, key: T -> int, k: int)
    requires SortedBy(s, key)
    ensures WithKey(Insert(x, s, key), key, k)
         == (if key(x) == k then [x] else []) + WithKey(s, key, k)
  {
    var mark := if key(x) == k then [x] else [];
    if |s| == 0 || key(x) <= key(s[0]) {
      WithKeyAppend([x], s, key, k);
      assert WithKey([x], key, k) == mark;
    } else {
      var head := if key(s[0]) == k then [s[0]] else [];
      var rest := Insert(x, s[1..], key);
      assert Insert(x, s, key) == [s[0]] + rest;
      assert WithKey([s[0]] + rest, key, k) == head + WithKey(rest, key, k);
      InsertWithKey(x, s[1..], key, k);
      assert WithKey(s, key, k) == head + WithKey(s[1..], key, k);
      // x and s[0] cannot share the key k, since key(s[0]) < key(x)
      assert head == [] || mark == [];
      assert head + mark == mark + head;
    }
  }

  /**
   * Stability: among elements with any one key, the sort keeps their
   * original relative order.
   */
  lemma {:induction false} SortByStable<T>(s: seq<T>, key: T -> int, k: int)
    ensures WithKey(SortBy(s, key), key, k) == WithKey(s, key, k)
  {
    if |s| > 0 {
      SortByStable(s[1..], key, k);
      InsertWithKey(s[0], SortBy(s[1..], key), key, k);
    }
  }
}

=== FILE: text.dfy ===
/**
 * The string behaviour of JavaScript that the components rely on:
 * truthiness of strings, `String.prototype.trim`, and decimal rendering of
 * integers in template literals (with a parser proving the rendering
 * loses nothing).
 */
module Text {
  import opened Wrappers

  /** A string is truthy in JavaScript exactly when it is non-empty. */
  predicate Truthy(s: string) {
    s != ""
  }

  /** An optional string (`undefined`, `null` or a string) used as a condition. */
  predicate TruthyOpt(s: Option<string>) {
    s.Some? && Truthy(s.value)
  }

  /** `s || fallback`: the string itself when it is truthy, otherwise the fallback. */
  function OrElse(s: Option<string>, fallback: string): (r: string)
    ensures TruthyOpt(s) ==> r == s.value
    ensures !TruthyOpt(s) ==> r == fallback
  {
    if s.Some? && s.value != "" then s.value else fallback
  }

  /**
   * The characters `trim` removes: WhiteSpace and LineTerminator of
   * sections 12.2 and 12.3 of ECMA-262 (tab, vertical tab, form feed,
   * the space separators of Unicode category Zs, BOM, LF, CR, LS, PS).
   */
  predicate IsJsWhitespace(c: char) {
    || c == '\t' || c == '\U{000B}' || c == '\U{000C}' || c == ' '
    || c == '\U{00A0}' || c == '\U{1680}'
    || ('\U{2000}' <= c <= '\U{200A}')
    || c == '\U{202F}' || c == '\U{205F}' || c == '\U{3000}' || c == '\U{FEFF}'
    || c == '\n' || c == '\r' || c == '\U{2028}' || c == '\U{2029}'
  }

  /** Every character of `s` is whitespace (vacuously so for ""). */
  predicate IsBlank(s: string) {
    forall i :: 0 <= i < |s| ==> IsJsWhitespace(s[i])
  }

  /** `s` with its leading whitespace removed. */
  function TrimStart(s: string): (r: string)
    ensures |r| <= |s| && r == s[|s| - |r|..]
    ensures forall i :: 0 <= i < |s| - |r| ==> IsJsWhitespace(s[i])
    ensures r == "" || !IsJsWhitespace(r[0])
  {
    if |s| > 0 && IsJsWhitespace(s[0]) then TrimStart(s[1..]) else s
  }

  /** `s` with its trailing whitespace removed. */
  function TrimEnd(s: string): (r: string)
    ensures |r| <= |s| && r == s[..|r|]
    ensures forall i :: |r| <= i < |s| ==> IsJsWhitespace(s[i])
    ensures r == "" || !IsJsWhitespace(r[|r| - 1])
  {
    if |s| > 0 && IsJsWhitespace(s[|s| - 1]) then TrimEnd(s[..|s| - 1]) else s
  }

  /** `s.trim()`. */
  function Trim(s: string): string {
    TrimEnd(TrimStart(s))
  }

  /** `s.trim() === ""` holds exactly for the whitespace-only strings. */
  lemma TrimEmptyIffBlank(s: string)
    ensures Trim(s) == "" <==> IsBlank(s)
  {
    var t := TrimStart(s);
    if !IsBlank(s) {
      assert t != "";
    }
  }

  // ---------------------------------------------------------------------
  // Decimal rendering, as a template literal renders a Number that holds
  // an integer.

  predicate IsDigit(c: char) {
    '0' <= c <= '9'
  }

  function DigitChar(d: int): (c: char)
    requires 0 <= d < 10
    ensures IsDigit(c) && c as int - '0' as int == d
  {
    ('0' as int + d) as char
  }

  function DigitValue(c: char): (d: int)
    requires IsDigit(c)
    ensures 0 <= d < 10
  {
    c as int - '0' as int
  }

  /** The shortest decimal numeral of `n`. */
  function NatToString(n: nat): (r: string)
    ensures |r| > 0
    ensures forall i :: 0 <= i < |r| ==> IsDigit(r[i])
  {
    if n < 10 then [DigitChar(n)] else NatToString(n / 10) + [DigitChar(n % 10)]
  }

  /** `${n}` for an integer `n`: a minus sign before the numeral of `-n` when negative. */
  function IntToString(n: int): (r: string)
    ensures |r| > 0
    ensures forall i :: 0 <= i < |r| ==> IsDigit(r[i]) || (i == 0 && r[i] == '-')
    ensures r[0] == '-' <==> n < 0
  {
    if n < 0 then "-" + NatToString(-n) else NatToString(n)
  }

  /** The value of a non-empty run of digits. */
  function ParseNat(s: string): nat
    requires |s| > 0 && forall i :: 0 <= i < |s| ==> IsDigit(s[i])
  {
    if |s| == 1 then DigitValue(s[0])
    else ParseNat(s[..|s| - 1]) * 10 + DigitValue(s[|s| - 1])
  }

  /** The integer a numeral (optionally negative) denotes, or `None` for anything else. */
  function ParseInt(s: string): Option<int> {
    if |s| > 0 && s[0] == '-' then
      var digits := s[1..];
      if |digits| > 0 && forall i :: 0 <= i < |digits| ==> IsDigit(digits[i])
      then Some(-(ParseNat(digits) as int)) else None
    else if |s| > 0 && forall i :: 0 <= i < |s| ==> IsDigit(s[i]) then Some(ParseNat(s))
    else None
  }

  lemma {:induction false} ParseNatOfNatToString(n: nat)
    ensures ParseNat(NatToString(n)) == n
  {
    if n >= 10 {
      var s := NatToString(n);
      var prefix := NatToString(n / 10);
      assert s[..|s| - 1] == prefix;
      ParseNatOfNatToString(n / 10);
    }
  }

  /** Rendering an integer and reading the numeral back gives the integer again. */
  lemma IntToStringRoundTrip(n: int)
    ensures ParseInt(IntToString(n)) == Some(n)
  {
    var s := IntToString(n);
    if n < 0 {
      assert s[1..] == NatToString(-n);
      ParseNatOfNatToString(-n);
    } else {
      ParseNatOfNatToString(n);
    }
  }

  /** Distinct integers render as distinct strings. */
  lemma IntToStringInjective(a: int, b: int)
    requires IntToString(a) == IntToString(b)
    ensures a == b
  {
    IntToStringRoundTrip(a);
    IntToStringRoundTrip(b);
  }

  // ---------------------------------------------------------------------
  // Splitting a path into its segments.

  /** The position of the first `c` in `s`. */
  function IndexOf(s: string, c: char): (i: nat)
    requires c in s
    ensures i < |s| && s[i] == c && c !in s[..i]
  {
    if s[0] == c then 0
    else
      assert s == [s[0]] + s[1..];
      var j := IndexOf(s[1..], c);
      assert s[..j + 1] == [s[0]] + s[1..][..j];
      j + 1
  }

  /** `s.split(sep)` for a one-character separator. */
  function SplitOn(s: string, sep: char): (parts: seq<string>)
    ensures |parts| > 0
    decreases |s|
  {
    if sep !in s then [s]
    else
      var i := IndexOf(s, sep);
      [s[..i]] + SplitOn(s[i + 1..], sep)
  }

  /** A segment free of the separator followed by the separator splits off as one part. */
  lemma SplitOnFirst(a: string, sep: char, rest: string)
    requires sep !in a
    ensures SplitOn(a + [sep] + rest, sep) == [a] + SplitOn(rest, sep)
  {
    var s := a + [sep] + rest;
    assert s[|a|] == sep;
    var i := IndexOf(s, sep);
    assert s[..i] == a;
    assert s[i + 1..] == rest;
  }
}

=== FILE: token_store.dfy ===
/**
 * The browser's `localStorage` item "jwt-token": one optional string cell
 * that the login page writes, the home page's logout clears, and the chat
 * and comment components read.
 */
module TokenStore {
  import opened Wrappers
  import opened Text

  /** `localStorage.getItem("jwt-token")`: `None` is `null`. */
  type Store = Option<string>

  /** `!!localStorage.getItem("jwt-token")`: an item that is a non-empty string. */
  predicate HasToken(store: Store) {
    TruthyOpt(store)
  }

  /** `localStorage.setItem("jwt-token", token)`. */
  function Write(token: string): (store: Store)
    ensures store == Some(token)
    ensures store.GetOr("") == token
    ensures HasToken(store) <==> token != ""
  {
    Some(token)
  }

  /** `localStorage.removeItem("jwt-token")`. */
  function Clear(): (store: Store)
    ensures store == None
    ensures !HasToken(store)
  {
    None
  }
}

=== FILE: wrappers.dfy ===
/** Optional values: JavaScript's `undefined`/`null` (or an absent field) is `None`. */
module Wrappers {

  datatype Option<+T> = None | Some(value: T) {

    /** The value, or `default` when absent (JavaScript's `x ?? default`). */
    function GetOr(default: T): T {
      match this
      case Some(v) => v
      case None() => default
    }
  }
}
